=== FILE: README.md ===
# ReCo_GYM security and membership rules in Dafny

This project models the parts of the ReCo_GYM gym-management application
(a Django project) that hold real decision logic, and proves properties of
them:

- the input sanitisers and validators of `gimnasio/security.py`:
  text and search sanitising, JavaScript escaping, URL, phone, member-id and
  e-mail validation, file-name sanitising, safe template contexts
  (`text.dfy`, `html.dfy`, `sanitizers.dfy`, `validators.dfy`);
- the save rules and derived state of `gimnasio/models.py`:
  - how a subscription derives its price and end date;
  - how a payment takes its amount from the linked subscription or class;
  - when a member is active;
  - when a class enrolment is refused, including the unique
    (member, class) pair;
  - the participant count (`models.dfy`);
- the checks `send_whatsapp_message` makes before it talks to Twilio, and
  how it turns a local Mexican mobile number into international form
  (`whatsapp.dfy`);
- `SecurityHeadersMiddleware`, as a transform of a response's header map
  (`middleware.dfy`).

Modelling choices:

- Python strings are `seq<char>`.
- Dates are day numbers (`int`). Money amounts are whole pesos (`int`).
- A database row's primary key is an `int`, where `0` stands for "not saved
  yet".
- Django's `escape` is the five-character map
  `& < > " '` → `&amp; &lt; &gt; &quot; &#x27;`.
- Django's `slugify` is a function parameter.
- Querysets are sequences of records. `.first()` on the unordered
  `suscripciones` queryset picks the smallest primary key, since Django
  orders by key when `first()` is used on an unordered queryset.
- Response headers are a map keyed by the lower-cased header name, as
  Django's case-insensitive header store is.

Behaviour of the code that a reader may not expect, each point proved in
the model:

- An unknown plan type is priced as the annual plan. It is not rejected.
- An internal member's activity depends on the *first* active subscription
  only (`Models.LaterActiveIgnored`), not on whether any active subscription
  is still running.
- An external member is active only with a payment in the last 30 days.
- Enrolment does not check class capacity (`Models.NoCapacityCheck`).
- Enrolment checks an external member's activity not at all
  (`Models.ExternoNeverRefusedForActivity`).
- Enrolment refuses a missing payment outright.
- A duplicate (member, class) pair, or a repeated `id_inscripcion` code, is
  refused by the database's uniqueness constraints (an `IntegrityError`),
  not by a dedicated error. Two enrolments left at the default empty code
  clash (`Models.SecondBlankCodeRefused`).
- Enrolling never adds the member to the class's `participantes` relation,
  so the participant count does not move
  (`Models.EnrollmentLeavesParticipants`).

Several expectations in `gimnasio/tests_security.py` are not met by the code,
and the model proves what the code does instead:

- The script payload of line 28 still contains `alert` after sanitising,
  because escaping only rewrites markup characters
  (`Sanitizers.ScriptPayloadKeepsAlert`; expected absent at line 31).
- `escape_javascript_string` never produces `\"`: HTML escaping turns every
  `"` into `&quot;` before the quote replacement runs
  (`Sanitizers.NoBackslashQuote`; expected at line 67).
- The middleware never sets `X-XSS-Protection`
  (`Middleware.XssProtectionUntouched`; expected at lines 137-138).
- The policy carries no nonce (`Middleware.CspHasNoNonce`; expected at
  line 149).

The comment at `gimnasio/security.py:108` says "one letter followed by 1-3
digits". The pattern on line 109 accepts one to three letters followed by one
to four digits, and the model follows the pattern.

## Model

| member | source | states |
|---|---|---|
| Text.Strip | gimnasio/security.py:27 | `str.strip()`: the result is a slice of the input with only whitespace cut on either side, and it neither starts nor ends with whitespace |
| Text.SliceTo | gimnasio/security.py:30 | Python's `s[:n]`: a prefix of the input, of length `min(n, len)` for `n >= 0`, and shorter by `-n` (floored at empty) for negative `n` |
| Text.ParseIntToString | ReCo_Gym/middleware.py:31 | the decimal text Python's f-string gives an integer reads back as that same integer, for every integer including negatives |
| Html.Escape | gimnasio/security.py:33 | Django's `escape`: the result has no `<`, `>`, `"` or `'`, is at most six times longer, equals the input exactly when the input has no special character, and is strictly longer otherwise |
| Html.UnescapeEscape | gimnasio/security.py:33 | escaping loses nothing: decoding the five entities gives back the original text |
| Html.EscapeAppend | gimnasio/security.py:33 | escaping works character by character: it distributes over concatenation |
| Html.EscapeKeepsPlainRun | gimnasio/security.py:33 | a run without special characters appears unchanged in the escaped text, right after the escaped prefix |
| Sanitizers.SanitizeTextInput | gimnasio/security.py:12-35 | a non-string gives `""`; the result has no raw markup character; decoding it gives back exactly the first 1000 characters of the stripped input; the result is at most 1000 long for text without special characters and at most 6000 in general; for a string it is exactly the escape of the first 1000 stripped characters (`Sanitizers.SanitizeTextInputIsEscape`); so every `&` in it opens an entity (`Html.EscapeAmpersandsAreEntities`) |
| Html.EscapeAmpersandsAreEntities | gimnasio/security.py:33 | every `&` in escaped text starts the entity of one of the five special characters, so no raw `&` survives escaping |
| Html.EscapeRun | gimnasio/security.py:33 | `n` copies of one character escape to `n` times that character's entity length |
| Sanitizers.TruncationBeforeEscape | gimnasio/security.py:27-33 | truncation runs before escaping: 1000 or more `<` followed by `x` sanitise to 4000 characters, where truncating the escaped text instead would give exactly 1000 |
| Sanitizers.SanitizeKeepsPlainWords | gimnasio/security.py:27-33 | a word without special characters inside a short stripped input is still present after sanitising |
| Sanitizers.ScriptPayloadKeepsAlert | gimnasio/security.py:27-33 | the test payload `<script>alert("XSS")</script>Texto` still contains `alert` after sanitising |
| Sanitizers.KeepSearchChars | gimnasio/security.py:135 | the character filter keeps only `\w`, whitespace, `-` and the accented vowels and `ñ`, and never lengthens the text; which characters it keeps is pinned by `Sanitizers.KeepSearchCharsAppend` and `Sanitizers.KeepSearchCharsSingle` |
| Sanitizers.KeepSearchCharsAppend | gimnasio/security.py:135 | the filter works character by character: filtering a concatenation is filtering each part |
| Sanitizers.KeepSearchCharsSingle | gimnasio/security.py:135 | a single character is kept exactly when it is a search character, and removed exactly when it is not |
| Sanitizers.CollapseSpaces | gimnasio/security.py:138 | after collapsing, no two spaces are adjacent; the result starts with a space exactly when the input starts with whitespace; filtered input gives only word characters, spaces and hyphens; how each run is replaced is pinned by `Sanitizers.CollapseSpacesRun` |
| Sanitizers.CollapseAppend | gimnasio/security.py:138 | text not ending in whitespace collapses independently of what follows: no run crosses the boundary |
| Sanitizers.CollapseSpacesRun | gimnasio/security.py:138 | a non-empty whitespace run between text that does not touch it with whitespace becomes exactly one space: collapsing `a + w + b` gives the collapse of `a`, a space, and the collapse of `b` |
| Sanitizers.FilterKeepsTerms | gimnasio/security.py:135 | the filter keeps every search-term character (kept and not whitespace) of the input, in order, and no other non-blank character |
| Sanitizers.CollapseKeepsTerms | gimnasio/security.py:138 | collapsing whitespace runs changes only whitespace: the non-blank characters are the same, in the same order |
| Sanitizers.QueryOutputHasNoSpecials | gimnasio/security.py:141 | text of word characters, spaces and hyphens has no character `escape` would rewrite, so the final escape is the identity |
| Sanitizers.SanitizeSearchQuery | gimnasio/security.py:113-143 | `None` or `""` gives `""`; the result holds only word characters, spaces and hyphens, with no two spaces adjacent; it is within `max_length`; its non-blank characters are exactly the search-term characters of the stripped, truncated query |
| Sanitizers.KeepSearchCharsClean | gimnasio/security.py:135 | text of word characters, spaces and hyphens passes the character filter unchanged |
| Sanitizers.CollapseSpacesClean | gimnasio/security.py:138 | text with only single spaces, none at the end, passes the whitespace collapse unchanged |
| Sanitizers.SearchQueryKeepsCleanQuery | gimnasio/security.py:113-143 | a query of word characters, hyphens and single inner spaces that fits in `max_length` comes back unchanged |
| Sanitizers.SearchQueryJoinsWords | gimnasio/security.py:113-143 | two clean words separated by any non-empty whitespace run, within `max_length`, come out joined by exactly one space |
| Sanitizers.SearchQueryNormalText | gimnasio/security.py:113-143 | the plain name `María García` of the search test comes back unchanged under the default length of 100 |
| Sanitizers.JsEncode | gimnasio/security.py:187-191 | the backslash, newline and carriage-return replacements leave no raw newline or carriage return and add no markup character |
| Sanitizers.JsUnescapeEncode | gimnasio/security.py:187-191 | the JavaScript escaping loses nothing: reading the escapes back gives the original text |
| Sanitizers.JsLayers | gimnasio/security.py:187-191 | the three `replace` calls in sequence have the same effect as one left-to-right pass that rewrites each `\`, newline and carriage return |
| Sanitizers.EscapeJavascriptString | gimnasio/security.py:172-193 | a non-string gives `""`; the result has no raw markup character, newline or carriage return; undoing the JavaScript escapes and then the HTML escapes gives back the input |
| Sanitizers.EscapeJavascriptAppend | gimnasio/security.py:185-191 | escaping for JavaScript distributes over concatenation |
| Sanitizers.EscapeJavascriptPlain | gimnasio/security.py:185-191 | text with no special HTML character, backslash, newline or carriage return is left unchanged |
| Sanitizers.EscapeJavascriptQuote | gimnasio/security.py:185-188 | a double quote becomes `&quot;`, not `\"` |
| Sanitizers.EscapeJavascriptNewline | gimnasio/security.py:185-190 | a newline becomes the two characters `\n` |
| Sanitizers.EscapeJavascriptReturn | gimnasio/security.py:185-191 | a carriage return becomes the two characters `\r` |
| Sanitizers.EscapeJavascriptShape | gimnasio/security.py:185-191 | the test input shape `a"b\nc\rd` (plain pieces) becomes `a&quot;b\nc\rd`, with the escapes as two characters |
| Sanitizers.NoBackslashQuote | gimnasio/security.py:182-193 | for every input the result never contains a backslash followed by a double quote |
| Sanitizers.SplitLastDot | gimnasio/security.py:160 | with a dot, the name and extension rebuild the file name around the last dot and the extension has no dot; without one, the name is the whole file name and the extension empty |
| Sanitizers.SplitLastDotUnique | gimnasio/security.py:160 | any split whose extension has no dot is the one `rsplit('.', 1)` returns |
| Sanitizers.SanitizeFilename | gimnasio/security.py:146-169 | the result is the slug of the name part, optionally followed by a dot and one of the eleven allowed extensions |
| Sanitizers.SanitizeFilenameAllowed | gimnasio/security.py:160-167 | an allowed extension, in any letter case, is kept lower-cased after the slug |
| Sanitizers.SanitizeFilenameOther | gimnasio/security.py:163-169 | an extension not on the list is dropped, leaving the bare slug |
| Text.Replace | gimnasio/security.py:157 | `str.replace` with a non-empty pattern: text without the pattern is unchanged; a replacement no longer than the pattern never lengthens the text, and a shorter one shortens every text that contains the pattern; the rewrite of text that does contain it is pinned by `Text.ReplaceLeftmost` |
| Text.ReplaceLeftmost | gimnasio/security.py:157 | for every text: the leftmost occurrence is replaced, the text before it is kept, and the scan resumes right after it, so overlapping occurrences are not rewritten |
| Text.ReplaceAfterPlain | gimnasio/security.py:157 | the leftmost-occurrence rule for text before the pattern that lacks the pattern's first character |
| Text.ReplacePlainPrefix | gimnasio/security.py:157 | text lacking the pattern's first character is copied through, whatever follows it |
| Sanitizers.RemoveTraversal | gimnasio/security.py:157 | never lengthens the name; a name containing neither `../` nor `..\` is unchanged; every other name gets strictly shorter; what it becomes is pinned by `Text.ReplaceLeftmost` and the two lemmas below |
| Sanitizers.TraversalRemovedInside | gimnasio/security.py:157 | a `../` after dot-free text is cut out wherever it sits, and the rest of the name is cleaned on its own: `report../x.pdf` becomes `reportx.pdf` |
| Sanitizers.BackslashTraversalRemovedInside | gimnasio/security.py:157 | a `..\` between dot-free parts is cut out by the second pass, after the first pass left it alone, and the parts are joined |
| Sanitizers.SanitizeFilenameNoDot | gimnasio/security.py:157-169 | a file name with no dot left once the traversal sequences are removed gives the slug of the cleaned name, with no extension |
| Sanitizers.TraversalPrefixDropped | gimnasio/security.py:157-169 | a leading `../` is removed: `../` followed by a dot-free name is saved as the slug of that name |
| Sanitizers.TraversalRemovalSinglePass | gimnasio/security.py:157 | the removal is a single pass: `..././` still yields `../` |
| Sanitizers.CreateSafeContext | gimnasio/security.py:235-253 | the same keys; non-string values unchanged; each string value replaced by its sanitised form (markup-free, at most 6000 long, decoding to the stripped and truncated original) |
| Text.Lower | gimnasio/security.py:166-167 | `str.lower()` on the modelled alphabet: the same length; no upper-case ASCII letter is left; every character that is not one stays in place; each upper-case letter becomes the lower-case letter that upper-cases back to it |
| Validators.ValidateUrl | gimnasio/security.py:196-232 | empty is refused; a leading `/` is accepted; without `://` it is refused; an accepted absolute URL has a scheme before the first `://` that is allowed and not dangerous |
| Validators.ValidateUrlScheme | gimnasio/security.py:218-232 | when `prefix` precedes the first `://`, the URL is accepted exactly when the lower-cased prefix is allowed and not one of the four dangerous schemes |
| Validators.DangerousSchemeRejected | gimnasio/security.py:224-226 | a dangerous scheme is refused even when the caller's allow-list contains it |
| Validators.ValidateUrlJavascriptTest | gimnasio/security.py:218-219 | `javascript:alert(1)` is refused: it has no `://` |
| Validators.ValidateUrlVbscriptTest | gimnasio/security.py:218-219 | `vbscript:msgbox(1)` is refused |
| Validators.ValidateUrlDataTest | gimnasio/security.py:218-219 | the `data:` test URL is refused |
| Validators.ValidateUrlHttpsTest | gimnasio/security.py:221-232 | `https://example.com` is accepted under the default schemes |
| Validators.ValidateUrlRelativeTest | gimnasio/security.py:214-215 | `/dashboard/` is accepted |
| Validators.ValidatePhone | gimnasio/security.py:83-95 | accepted exactly when some split matches the pattern: an optional `+`, then 8 to 20 digits, blanks, hyphens or parentheses, then at most a final newline |
| Validators.PhonePatternIff | gimnasio/security.py:94-95 | the computed check (strip one `+`, test the body, allow one trailing newline) agrees with the pattern in both directions |
| Validators.ValidatePhoneTestCases | gimnasio/security.py:94-95 | the three valid and two invalid phone numbers of the validation tests get the expected verdicts |
| Text.Upper | gimnasio/security.py:110 | `str.upper()` on the modelled alphabet: the same length; no lower-case ASCII letter is left; every character that is not one stays in place; each lower-case letter becomes the capital that lower-cases back to it; with `Text.UpperIdempotent`, `Text.UpperNoLower` and `Text.StripUpper` as partners |
| Text.UpperIdempotent | gimnasio/security.py:110 | upper-casing twice is upper-casing once |
| Text.UpperNoLower | gimnasio/security.py:110 | text without a lower-case letter is its own upper-case form |
| Text.StripUpper | gimnasio/security.py:110 | upper-casing and stripping commute, so `strip().upper()` equals `upper().strip()` |
| Validators.SocioIdShapeIff | gimnasio/security.py:109 | the computed letters-then-digits check agrees with the pattern `^[A-Z]{1,3}\d{1,4}$` in both directions |
| Validators.ValidateSocioId | gimnasio/security.py:98-110 | accepted exactly when the stripped, upper-cased id splits into one to three capitals followed by one to four digits |
| Validators.SocioIdIgnoresSpace | gimnasio/security.py:110 | surrounding whitespace never changes the verdict |
| Validators.SocioIdIgnoresUpper | gimnasio/security.py:110 | upper-casing first never changes the verdict |
| Validators.SocioIdIgnoresLower | gimnasio/security.py:110 | lower-casing first never changes the verdict |
| Validators.ValidateSocioIdCanonical | gimnasio/security.py:109-110 | an id already stripped and upper-case is accepted exactly when it has the letters-then-digits shape |
| Validators.ValidateSocioIdPlain | gimnasio/security.py:109-110 | the same holds for any id with no surrounding blank and no lower-case letter |
| Validators.ValidateSocioIdAccepted | gimnasio/security.py:109-110 | `S001` and `ABC123` are accepted |
| Validators.ValidateSocioIdRejected | gimnasio/security.py:109-110 | `001` (no letter) and `S` (no digit) are refused |
| Validators.EmailShapeIff | gimnasio/security.py:79 | the computed check (local part, `@`, domain, last dot, letters) agrees with the pattern in both directions |
| Validators.ValidateEmail | gimnasio/security.py:69-80 | accepted exactly when the address, or the address without one trailing newline, matches the pattern |
| Models.SaveSuscripcion | gimnasio/models.py:61-72 | a saved subscription always has a key; saving changes only the key, total and end date; a row with a key is stored as given; a new row gets the database's key and the plan's price and duration (500/30, 1500/90, otherwise 6000/365) |
| Models.SaveSuscripcionIdempotent | gimnasio/models.py:61-72 | saving a saved subscription again changes nothing |
| Models.EditedPlanGoesStale | gimnasio/models.py:61-72 | editing the plan of a stored subscription to one with another price leaves the total and end date unchanged, so they no longer match the plan |
| Models.SavePago | gimnasio/models.py:93-98 | saving changes only the amount: a gym payment with a subscription takes its total, a class payment with a class takes its price, anything else keeps the amount given |
| Models.SavePagoIdempotent | gimnasio/models.py:93-98 | saving a payment twice is the same as saving it once |
| Models.LinkedAmountIgnoresInput | gimnasio/models.py:94-97 | with a linked subscription or class, the amount the caller supplied has no effect |
| Models.NewSubscriptionPaymentChargesPlan | gimnasio/models.py:61-98 | a gym payment for a newly created subscription charges exactly the plan's price |
| Models.ParticipantesActuales | gimnasio/models.py:118-120 | the count is zero exactly when the relation is empty; what it counts is pinned by `Models.ParticipantCountMatchesListing` |
| Models.ParticipantCountMatchesListing | gimnasio/models.py:113-120 | the count equals the number of rows of any repeat-free listing of the participants, as `.count()` counts the join table's rows |
| Models.EnrollmentLeavesParticipants | gimnasio/models.py:113-141 | a successful enrolment stores the class as given: the participant count is unchanged, and the member is a participant afterwards only if they were before. This holds by construction: it records only that `save` adds nothing to the many-to-many relation |
| Models.ParticipantCountOnAdd | gimnasio/models.py:118-120 | adding a member raises the count by one, or by nothing if they were already enrolled |
| Models.FirstActive | gimnasio/models.py:40 | the member's active subscription with the smallest key, or none when the member has no active subscription |
| Models.HasPaymentSince | gimnasio/models.py:43 | true exactly when the member has a payment on or after the given day |
| Models.IsActivo | gimnasio/models.py:38-44 | an internal member is active exactly when the first active subscription exists and ends today or later; any other member exactly when some payment is at most 30 days old |
| Models.InternoActiveIffEarliestValid | gimnasio/models.py:39-41 | with unique keys, an internal member is active exactly when the earliest active subscription ends today or later |
| Models.LaterActiveIgnored | gimnasio/models.py:39-41 | adding an active subscription with a later key never changes an internal member's status |
| Models.FirstActiveAppendLater | gimnasio/models.py:40 | a subscription appended with a larger key than an existing active one does not change which one is first |
| Models.ExternoIgnoresSubscriptions | gimnasio/models.py:42-44 | a non-internal member's status does not depend on subscriptions at all |
| Models.Upsert | gimnasio/models.py:141 | storing a row puts it in the table, drops only the row with the same key, and keeps all others |
| Models.SaveInscripcion | gimnasio/models.py:123-141 | no payment: refused with the payment message (checked first); inactive internal member: refused with the subscription message; a pair already enrolled, or an `id_inscripcion` code already used, under another key: integrity error; otherwise stored with a key, all other rows kept, the table growing by at most one row; success exactly when none of these refusals applies |
| Models.SaveInscripcionKeepsTableOk | gimnasio/models.py:123-141 | a successful save keeps keys non-zero and unique, `id_inscripcion` codes unique and (member, class) pairs unique |
| Models.SecondBlankCodeRefused | gimnasio/models.py:124 | a new enrolment left at the default empty code is refused with an integrity error when any stored row also has the empty code |
| Models.ExternoNeverRefusedForActivity | gimnasio/models.py:139-141 | an external member with a payment is enrolled exactly when the pair is not taken, whatever their activity |
| Models.NoCapacityCheck | gimnasio/models.py:136-141 | the class's capacity and current participants never change whether enrolment succeeds |
| WhatsApp.NationalPart | gimnasio/whatsapp.py:14-15 | one leading `0` is dropped; a number not starting with `0` is kept |
| WhatsApp.WithMobilePrefix | gimnasio/whatsapp.py:16-17 | the result starts with `521`, ends with the input, is at most three characters longer, and stays all digits |
| WhatsApp.WithMobilePrefixExact | gimnasio/whatsapp.py:16-17 | the prefix is added exactly when it is missing: the result is the input itself exactly when it already starts with `521`, and otherwise three characters longer |
| WhatsApp.PlainLocalNumberPrefixed | gimnasio/whatsapp.py:13-18 | a local number with no leading `0` and no `521` of its own becomes `+521` followed by all of its digits |
| WhatsApp.NormalizeStripped | gimnasio/whatsapp.py:13-21 | refused exactly when the stripped number is neither 10-11 digits nor starts with `+`; an accepted number starts with `+`; a `+` number passes unchanged |
| WhatsApp.LocalNumberShape | gimnasio/whatsapp.py:13-18 | a local number becomes `+521` and digits only, ending with its national part, at most 15 characters long (the E.164 maximum) |
| WhatsApp.Normalize | gimnasio/whatsapp.py:12-21 | after stripping, a number is refused exactly when it is neither 10-11 digits nor starts with `+`; an accepted result starts with `+`; a stripped `+` number is kept as it is |
| WhatsApp.PlusNumberKept | gimnasio/whatsapp.py:19 | a number starting with `+` is accepted as it is |
| WhatsApp.AcceptedKeepsLastChar | gimnasio/whatsapp.py:13-19 | normalising keeps the number's last character |
| WhatsApp.AcceptedIsStripped | gimnasio/whatsapp.py:12-21 | an accepted stripped number has no surrounding whitespace |
| WhatsApp.NormalizeStrippedIdempotent | gimnasio/whatsapp.py:12-21 | an accepted stripped number is accepted again, unchanged |
| WhatsApp.NormalizeIdempotent | gimnasio/whatsapp.py:12-21 | normalising an accepted number again leaves it unchanged |
| WhatsApp.PrefixNotDoubled | gimnasio/whatsapp.py:16-18 | a local number already starting with `521` only gains the `+` |
| WhatsApp.LeadingZeroReplaced | gimnasio/whatsapp.py:14-18 | a local number with a leading zero loses it and gains `+521`, or only `+` when what follows the zero already starts with `521` |
| WhatsApp.PrepareRecipient | gimnasio/whatsapp.py:5-22 | missing credentials are reported first, then a missing or empty number; a number normalising to nothing gives the bare refusal, and only it does; with credentials and a number that normalises, the outcome is ready, with destination exactly `whatsapp:` followed by the normalised number |
| WhatsApp.BlankNumberRefusedBare | gimnasio/whatsapp.py:9-20 | a number made only of blanks passes the emptiness check and is then refused without a message |
| Middleware.SetHeader | ReCo_Gym/middleware.py:15 | setting a header replaces the header of that name in any letter case and touches no other |
| Middleware.AddFixedHeaders | ReCo_Gym/middleware.py:15-27 | the five fixed headers get their literal values; no other header changes |
| Middleware.AddSecurityHeaders | ReCo_Gym/middleware.py:11-33 | the result has the response's headers plus the managed ones; the five fixed headers have their literal values; HSTS is `max-age=N; includeSubDomains` when `N` is non-zero and absent otherwise (unless already present); every other header is unchanged |
| Middleware.SecurityHeaders | ReCo_Gym/middleware.py:15-31 | the managed headers are the five fixed ones, plus HSTS exactly when the setting is non-zero |
| Middleware.AddSecurityHeadersManaged | ReCo_Gym/middleware.py:15-31 | each managed header written carries its listed value |
| Middleware.AddSecurityHeadersOverlay | ReCo_Gym/middleware.py:11-33 | the middleware's effect is the response's headers overlaid with the security headers |
| Middleware.AddSecurityHeadersIdempotent | ReCo_Gym/middleware.py:11-33 | applying the middleware twice equals applying it once |
| Middleware.XssProtectionUntouched | ReCo_Gym/middleware.py:11-33 | `X-XSS-Protection` is neither added nor changed |
| Middleware.CspAllowsInlineScripts | ReCo_Gym/middleware.py:27 | the policy contains `script-src 'self' 'unsafe-inline'` |
| Middleware.CspHasNoNonce | ReCo_Gym/middleware.py:27 | the policy contains no `'nonce-` source |
| Middleware.HstsValueRoundTrip | ReCo_Gym/middleware.py:31 | the HSTS value is `max-age=`, then the configured seconds (which read back exactly), then `; includeSubDomains` |

## Left out

- Character classes: Python's Unicode `\s`, `\w`, `\d` and `str.strip()` are modelled on Latin-1 whitespace and word characters, and case mapping on ASCII letters only. Characters outside Latin-1 are not classified the way Python does, and the case mapping differs from Python's even within Latin-1 (see the next line).
- `Validators.ValidateSocioId`: Python's `str.upper()` maps `ß` to the two letters `SS`, so `validate_socio_id("ß1")` is true, while the model's ASCII upper-casing keeps `ß` and refuses it. Outside Latin-1, `ı`, `ſ` and ligatures such as `ﬁ` also upper-case to ASCII capitals in Python. Other lower-case Latin-1 letters upper-case to non-ASCII capitals, which the pattern refuses in both.
- `Text.Lower`: Python also lower-cases the Latin-1 capitals U+00C0 to U+00DE (`À` through `Þ`, except `×`); the model leaves them as they are. The allowed extensions and the default and dangerous schemes are all ASCII, so this changes no verdict except for a caller-supplied scheme list with such letters.
- Django's `escape` is not part of this model. Its five-character map is an assumption.
- `slugify` is not part of this model. It is an arbitrary function passed in.
- `sanitize_html` wraps `bleach.clean`, which is not part of this model.
- Validators given a non-string: `validate_email`, `validate_phone` and `validate_socio_id` would raise. The model takes strings only.
- `Validators.ValidateUrl`: takes a string. `validate_url(None)` returns false through `if not url` (`gimnasio/security.py:207`); the model covers the empty-string half of that test, and a truthy non-string (which would raise) is not an input.
- `Sanitizers.SanitizeFilename`: a non-string raises at `.replace`; the model takes strings only.
- `Sanitizers.SanitizeSearchQuery`: a truthy non-string raises at `.strip()`; the model's optional string covers `None` and strings only.
- `str(recipient_number)` on a non-string number: the model takes text only.
- Twilio: the client call, the message body, the `print` calls and the exception handling of `send_whatsapp_message` are network I/O and are left out.
- `settings`: the `settings` lookup is replaced by parameters.
- The ORM is left out: persistence, querysets, related managers, `auto_now_add` timestamps, cascading and `SET_NULL` deletes. Tables are in-memory sequences and records. Dates and keys are passed in.
- Money: amounts are whole numbers; `Decimal` fractions are not modelled, and every constant in the code is a whole number.
- `Models.SaveInscripcion`: the uniqueness constraint is checked before the row is written, as the database does inside the insert. The surrounding transaction is not modelled.
- `Models.SaveSuscripcion`: the unique `id_suscripcion` code (`gimnasio/models.py:49`) is not modelled. The function saves one record without a table, so a repeated code, which the database would refuse, is not detected.
- `Models.SavePago`: the unique `id_pago` code (`gimnasio/models.py:84`) is likewise not modelled.
- `Models.SaveInscripcion`: the `activo` property of a member with no key (related managers on an unsaved member raise in Django) is not modelled.
- Plumbing: views, URL configuration, REST viewsets, serializers, admin registration and the role-setup command are declarative or web plumbing, and are not part of this model.
- Schema-only models without behaviour are not part of this model.

=== FILE: html.dfy ===
/** HTML escaping as done by Django's `django.utils.html.escape`: a
    per-character translation of the five markup-significant characters. The
    library itself is not part of this model; the translation table below is
    the one it documents (`&`, `<`, `>`, `"`, `'` to `&amp;`, `&lt;`, `&gt;`,
    `&quot;`, `&#x27;`). `Unescape` is the inverse used to state what escaping
    preserves. */
module Html {
  import opened Text

  /** The characters that escaping rewrites. */
  predicate IsSpecial(c: char) {
    c == '&' || c == '<' || c == '>' || c == '"' || c == '\''
  }

  predicate NoSpecials(s: string) {
    forall i :: 0 <= i < |s| ==> !IsSpecial(s[i])
  }

  /** No character that opens a tag or closes an attribute value. */
  predicate MarkupFree(s: string) {
    forall i :: 0 <= i < |s| ==> s[i] != '<' && s[i] != '>' && s[i] != '"' && s[i] != '\''
  }

  function EscapeChar(c: char): (r: string)
    ensures 1 <= |r| <= 6
    ensures MarkupFree(r)
    ensures IsSpecial(c) <==> |r| > 1
  {
    if c == '&' then "&amp;"
    else if c == '<' then "&lt;"
    else if c == '>' then "&gt;"
    else if c == '"' then "&quot;"
    else if c == '\'' then "&#x27;"
    else [c]
  }

  /** `escape(s)`: grows the text at most sixfold, leaves no raw markup
      character, and is the identity exactly on text without special characters. */
  function Escape(s: string): (r: string)
    ensures |s| <= |r| <= 6 * |s|
    ensures MarkupFree(r)
    ensures NoSpecials(s) ==> r == s
    ensures !NoSpecials(s) ==> |r| > |s|
  {
    if s == [] then []
    else
      var r := EscapeChar(s[0]) + Escape(s[1..]);
      assert forall i :: 0 <= i < |r| ==> r[i] == if i < |EscapeChar(s[0])| then EscapeChar(s[0])[i] else Escape(s[1..])[i - |EscapeChar(s[0])|];
      assert !NoSpecials(s) && !IsSpecial(s[0]) ==> !NoSpecials(s[1..]) by {
        if !NoSpecials(s) && !IsSpecial(s[0]) {
          var k :| 0 <= k < |s| && IsSpecial(s[k]);
          assert k > 0 && IsSpecial(s[1..][k - 1]);
        }
      }
      r
  }

  lemma {:induction false} EscapeAppend(a: string, b: string)
    ensures Escape(a + b) == Escape(a) + Escape(b)
    decreases |a|
  {
    if a == [] {
      assert a + b == b && Escape(a) == [];
    } else {
      EscapeAppend(a[1..], b);
      EscapeAppendStep(a, b);
    }
  }

  /** The inductive step of `EscapeAppend`. */
  lemma EscapeAppendStep(a: string, b: string)
    requires a != []
    requires Escape(a[1..] + b) == Escape(a[1..]) + Escape(b)
    ensures Escape(a + b) == Escape(a) + Escape(b)
  {
    TailAppend(a, b);
    EscapeCons(a + b);
    EscapeCons(a);
    SeqAssoc(EscapeChar(a[0]), Escape(a[1..]), Escape(b));
  }

  /** `Escape` translates the first character and then the rest. */
  lemma EscapeCons(s: string)
    requires s != []
    ensures Escape(s) == EscapeChar(s[0]) + Escape(s[1..])
  {
  }

  /** Every `&` in `r` opens the entity of a special character. */
  predicate AmpersandsAreEntities(r: string) {
    forall i :: 0 <= i < |r| && r[i] == '&' ==> exists c :: IsSpecial(c) && OccursAt(r, EscapeChar(c), i)
  }

  /** Every `&` in escaped text opens the entity of a special character: a
      raw `&` never survives escaping. */
  lemma {:induction false} EscapeAmpersandsAreEntities(s: string)
    ensures forall i :: 0 <= i < |Escape(s)| && Escape(s)[i] == '&' ==>
      exists c :: IsSpecial(c) && OccursAt(Escape(s), EscapeChar(c), i)
    decreases |s|
  {
    if s != [] {
      EscapeAmpersandsAreEntities(s[1..]);
      EntityThenEntities(s[0], Escape(s[1..]));
      assert Escape(s) == EscapeChar(s[0]) + Escape(s[1..]);
    }
  }

  /** One character's escape followed by text whose `&`s open entities. */
  lemma EntityThenEntities(c0: char, t: string)
    requires AmpersandsAreEntities(t)
    ensures AmpersandsAreEntities(EscapeChar(c0) + t)
  {
    var e := EscapeChar(c0);
    var r := e + t;
    forall i | 0 <= i < |r| && r[i] == '&'
      ensures exists c :: IsSpecial(c) && OccursAt(r, EscapeChar(c), i)
    {
      if i < |e| {
        assert e[i] == '&';
        AmpersandOnlyFirst(c0, i);
        OccursAtStart(e, t);
        assert IsSpecial(c0) && OccursAt(r, EscapeChar(c0), i);
      } else {
        assert t[i - |e|] == '&';
        var c :| IsSpecial(c) && OccursAt(t, EscapeChar(c), i - |e|);
        OccursAfterPrefix(e, t, EscapeChar(c), i - |e|);
      }
    }
  }

  /** An `&` in one character's escape is the first character of an entity. */
  lemma AmpersandOnlyFirst(c: char, i: nat)
    requires i < |EscapeChar(c)| && EscapeChar(c)[i] == '&'
    ensures i == 0 && IsSpecial(c)
  {
  }

  lemma OccursAtStart(x: string, t: string)
    ensures OccursAt(x + t, x, 0)
  {
    assert (x + t)[..|x|] == x;
  }

  lemma OccursAfterPrefix(p: string, t: string, x: string, j: nat)
    requires OccursAt(t, x, j)
    ensures OccursAt(p + t, x, j + |p|)
  {
    assert (p + t)[j + |p|..j + |p| + |x|] == t[j..j + |x|];
  }

  lemma LessThanEntity()
    ensures EscapeChar('<') == "&lt;" && |EscapeChar('<')| == 4
  {
  }

  /** A run of `n` copies of one character grows by that character's entity
      length: `n` opening brackets escape to `4 * n` characters. */
  lemma {:induction false} EscapeRun(c: char, n: nat)
    ensures |Escape(Repeat(c, n))| == n * |EscapeChar(c)|
    decreases n
  {
    if n > 0 {
      var s, k := Repeat(c, n), |EscapeChar(c)|;
      assert s[0] == c && s[1..] == Repeat(c, n - 1);
      EscapeRun(c, n - 1);
      assert |Escape(s)| == k + |Escape(s[1..])|;
      assert n * k == (n - 1) * k + k;
    }
  }

  /** Decodes the five entities that `Escape` produces; every other character
      is copied. */
  function Unescape(s: string): string
    decreases |s|
  {
    if s == [] then []
    else if s[0] != '&' then [s[0]] + Unescape(s[1..])
    else if StartsWith(s, "&amp;") then "&" + Unescape(s[5..])
    else if StartsWith(s, "&lt;") then "<" + Unescape(s[4..])
    else if StartsWith(s, "&gt;") then ">" + Unescape(s[4..])
    else if StartsWith(s, "&quot;") then "\"" + Unescape(s[6..])
    else if StartsWith(s, "&#x27;") then "'" + Unescape(s[6..])
    else [s[0]] + Unescape(s[1..])
  }

  lemma UnescapeEscapeChar(c: char, rest: string)
    ensures Unescape(EscapeChar(c) + rest) == [c] + Unescape(rest)
  {
    var e := EscapeChar(c);
    var s := e + rest;
    assert s[..|e|] == e && s[|e|..] == rest;
    if c == '&' {
      assert StartsWith(s, "&amp;");
    } else if c == '<' {
      assert s[1] == 'l';
      NotStartsWith(s, "&amp;", 1);
      assert StartsWith(s, "&lt;");
    } else if c == '>' {
      assert s[1] == 'g';
      NotStartsWith(s, "&amp;", 1);
      NotStartsWith(s, "&lt;", 1);
      assert StartsWith(s, "&gt;");
    } else if c == '"' {
      assert s[1] == 'q';
      NotStartsWith(s, "&amp;", 1);
      NotStartsWith(s, "&lt;", 1);
      NotStartsWith(s, "&gt;", 1);
      assert StartsWith(s, "&quot;");
    } else if c == '\'' {
      assert s[1] == '#';
      NotStartsWith(s, "&amp;", 1);
      NotStartsWith(s, "&lt;", 1);
      NotStartsWith(s, "&gt;", 1);
      NotStartsWith(s, "&quot;", 1);
      assert StartsWith(s, "&#x27;");
    } else {
      assert s[0] == c && c != '&';
      assert s[1..] == rest;
    }
  }

  /** Escaping loses no information: unescaping recovers the original text. */
  lemma {:induction false} UnescapeEscape(s: string)
    ensures Unescape(Escape(s)) == s
    decreases |s|
  {
    if s != [] {
      UnescapeEscapeChar(s[0], Escape(s[1..]));
      UnescapeEscape(s[1..]);
      assert [s[0]] + s[1..] == s;
    }
  }

  /** A run without special characters comes through escaping intact, right
      after the escaped text before it. */
  lemma EscapeKeepsPlainRun(a: string, w: string, b: string)
    requires NoSpecials(w)
    ensures OccursAt(Escape(a + w + b), w, |Escape(a)|)
  {
    EscapeAppend(a + w, b);
    EscapeAppend(a, w);
    var r := Escape(a) + w + Escape(b);
    assert r[|Escape(a)|..|Escape(a)| + |w|] == w;
  }
}

=== FILE: middleware.dfy ===
/** `SecurityHeadersMiddleware` (`ReCo_Gym/middleware.py`) as a transform of
    the response's header map. Django keeps response headers
    case-insensitively: the map is keyed by the lower-cased name and holds the
    name as last written together with its value. */
module Middleware {
  import opened Text

  datatype Header = Header(name: string, value: string)

  type Headers = map<string, Header>

  /** `response[name] = value`: replaces any header of the same name, in any
      letter case, and touches no other. */
  function SetHeader(h: Headers, name: string, value: string): (r: Headers)
    ensures Lower(name) in r && r[Lower(name)] == Header(name, value)
    ensures forall k :: k != Lower(name) ==> (k in r <==> k in h)
    ensures forall k :: k != Lower(name) && k in h ==> r[k] == h[k]
  {
    h[Lower(name) := Header(name, value)]
  }

  const ContentTypeOptions := "X-Content-Type-Options"
  const FrameOptions := "X-Frame-Options"
  const ReferrerPolicy := "Referrer-Policy"
  const PermissionsPolicy := "Permissions-Policy"
  const ContentSecurityPolicy := "Content-Security-Policy"
  const StrictTransportSecurity := "Strict-Transport-Security"

  const PermissionsPolicyValue := "geolocation=(), microphone=()"

  /** The policy, one directive per constant. */
  const DefaultSrc := "default-src 'self'; "
  const ScriptSrc := "script-src 'self' 'unsafe-inline'; "
  const StyleSrc := "style-src 'self' 'unsafe-inline'; "
  const ImgSrc := "img-src 'self' data:;"
  const CspValue := DefaultSrc + ScriptSrc + StyleSrc + ImgSrc

  /** The value of the HSTS header for `seconds`, formatted as `str` would. */
  function HstsValue(seconds: int): string {
    "max-age=" + IntToString(seconds) + "; includeSubDomains"
  }

  /** The map keys of the six headers: their names in lower case. */
  const ContentTypeOptionsKey := "x-content-type-options"
  const FrameOptionsKey := "x-frame-options"
  const ReferrerPolicyKey := "referrer-policy"
  const PermissionsPolicyKey := "permissions-policy"
  const ContentSecurityPolicyKey := "content-security-policy"
  const StrictTransportSecurityKey := "strict-transport-security"

  lemma ContentTypeOptionsLower() ensures Lower(ContentTypeOptions) == ContentTypeOptionsKey {}
  lemma FrameOptionsLower() ensures Lower(FrameOptions) == FrameOptionsKey {}
  lemma ReferrerPolicyLower() ensures Lower(ReferrerPolicy) == ReferrerPolicyKey {}
  lemma PermissionsPolicyLower() ensures Lower(PermissionsPolicy) == PermissionsPolicyKey {}
  lemma ContentSecurityPolicyLower() ensures Lower(ContentSecurityPolicy) == ContentSecurityPolicyKey {}
  lemma StrictTransportSecurityLower() ensures Lower(StrictTransportSecurity) == StrictTransportSecurityKey {}

  /** The six keys are different strings (each pair differs in length or in
      its first characters). */
  lemma KeysDistinct()
    ensures StrictTransportSecurityKey !in {ContentTypeOptionsKey, FrameOptionsKey, ReferrerPolicyKey, PermissionsPolicyKey, ContentSecurityPolicyKey}
    ensures ContentSecurityPolicyKey !in {ContentTypeOptionsKey, FrameOptionsKey, ReferrerPolicyKey, PermissionsPolicyKey}
    ensures PermissionsPolicyKey !in {ContentTypeOptionsKey, FrameOptionsKey, ReferrerPolicyKey}
    ensures ReferrerPolicyKey !in {ContentTypeOptionsKey, FrameOptionsKey}
    ensures FrameOptionsKey != ContentTypeOptionsKey
  {
  }

  /** The header keys the middleware writes; HSTS only when `hstsSeconds` is
      non-zero (Python truthiness of the setting). */
  function ManagedKeys(hstsSeconds: int): set<string> {
    var fixed := {ContentTypeOptionsKey, FrameOptionsKey, ReferrerPolicyKey, PermissionsPolicyKey, ContentSecurityPolicyKey};
    if hstsSeconds != 0 then fixed + {StrictTransportSecurityKey} else fixed
  }

  /** The five fixed headers. */
  function AddFixedHeaders(h: Headers): (r: Headers)
    ensures r.Keys == h.Keys + ManagedKeys(0)
    ensures r[ContentTypeOptionsKey] == Header(ContentTypeOptions, "nosniff")
    ensures r[FrameOptionsKey] == Header(FrameOptions, "DENY")
    ensures r[ReferrerPolicyKey] == Header(ReferrerPolicy, "same-origin")
    ensures r[PermissionsPolicyKey] == Header(PermissionsPolicy, PermissionsPolicyValue)
    ensures r[ContentSecurityPolicyKey] == Header(ContentSecurityPolicy, CspValue)
    ensures forall k :: k !in ManagedKeys(0) && k in h ==> r[k] == h[k]
  {
    ContentTypeOptionsLower();
    FrameOptionsLower();
    ReferrerPolicyLower();
    PermissionsPolicyLower();
    ContentSecurityPolicyLower();
    KeysDistinct();
    var r := SetHeader(h, ContentTypeOptions, "nosniff");
    var r := SetHeader(r, FrameOptions, "DENY");
    var r := SetHeader(r, ReferrerPolicy, "same-origin");
    var r := SetHeader(r, PermissionsPolicy, PermissionsPolicyValue);
    SetHeader(r, ContentSecurityPolicy, CspValue)
  }

  /** `SecurityHeadersMiddleware.__call__` applied to the response headers
      `h`: five fixed headers always, HSTS when the setting is non-zero; every
      other header is left as it was. */
  function AddSecurityHeaders(h: Headers, hstsSeconds: int): (r: Headers)
    ensures r.Keys == h.Keys + ManagedKeys(hstsSeconds)
    ensures r[ContentTypeOptionsKey] == Header(ContentTypeOptions, "nosniff")
    ensures r[FrameOptionsKey] == Header(FrameOptions, "DENY")
    ensures r[ReferrerPolicyKey] == Header(ReferrerPolicy, "same-origin")
    ensures r[PermissionsPolicyKey] == Header(PermissionsPolicy, PermissionsPolicyValue)
    ensures r[ContentSecurityPolicyKey] == Header(ContentSecurityPolicy, CspValue)
    ensures hstsSeconds != 0 ==>
      r[StrictTransportSecurityKey] == Header(StrictTransportSecurity, HstsValue(hstsSeconds))
    ensures forall k :: k !in ManagedKeys(hstsSeconds) && k in h ==> r[k] == h[k]
  {
    var r := AddFixedHeaders(h);
    if hstsSeconds != 0 then
      StrictTransportSecurityLower();
      KeysDistinct();
      assert ManagedKeys(hstsSeconds) == ManagedKeys(0) + {StrictTransportSecurityKey};
      SetHeader(r, StrictTransportSecurity, HstsValue(hstsSeconds))
    else
      assert ManagedKeys(hstsSeconds) == ManagedKeys(0);
      r
  }

  /** The headers the middleware writes, as a map of their own. */
  function SecurityHeaders(hstsSeconds: int): (m: Headers)
    ensures m.Keys == ManagedKeys(hstsSeconds)
  {
    var fixed := map[
      ContentTypeOptionsKey := Header(ContentTypeOptions, "nosniff"),
      FrameOptionsKey := Header(FrameOptions, "DENY"),
      ReferrerPolicyKey := Header(ReferrerPolicy, "same-origin"),
      PermissionsPolicyKey := Header(PermissionsPolicy, PermissionsPolicyValue),
      ContentSecurityPolicyKey := Header(ContentSecurityPolicy, CspValue)];
    if hstsSeconds != 0 then fixed[StrictTransportSecurityKey := Header(StrictTransportSecurity, HstsValue(hstsSeconds))]
    else fixed
  }

  /** Each security header the middleware writes carries the value listed
      in `SecurityHeaders`. */
  lemma AddSecurityHeadersManaged(h: Headers, hstsSeconds: int, k: string)
    requires k in ManagedKeys(hstsSeconds)
    ensures AddSecurityHeaders(h, hstsSeconds)[k] == SecurityHeaders(hstsSeconds)[k]
  {
    if k == StrictTransportSecurityKey {
      HstsManaged(h, hstsSeconds);
    } else {
      assert k in ManagedKeys(0);
      FixedManaged(h, hstsSeconds, k);
    }
  }

  /** The HSTS header, when written, carries the listed value. */
  lemma HstsManaged(h: Headers, hstsSeconds: int)
    requires hstsSeconds != 0
    ensures AddSecurityHeaders(h, hstsSeconds)[StrictTransportSecurityKey]
         == SecurityHeaders(hstsSeconds)[StrictTransportSecurityKey]
  {
  }

  /** Each of the five fixed headers carries the listed value. */
  lemma FixedManaged(h: Headers, hstsSeconds: int, k: string)
    requires k in ManagedKeys(0)
    ensures AddSecurityHeaders(h, hstsSeconds)[k] == SecurityHeaders(hstsSeconds)[k]
  {
    KeysDistinct();
    var m := SecurityHeaders(0);
    assert m[ContentTypeOptionsKey] == Header(ContentTypeOptions, "nosniff");
    assert m[FrameOptionsKey] == Header(FrameOptions, "DENY");
    assert m[ReferrerPolicyKey] == Header(ReferrerPolicy, "same-origin");
    assert m[PermissionsPolicyKey] == Header(PermissionsPolicy, PermissionsPolicyValue);
    assert m[ContentSecurityPolicyKey] == Header(ContentSecurityPolicy, CspValue);
    assert SecurityHeaders(hstsSeconds)[k] == m[k];
  }

  /** The middleware overlays its own headers on the response's: the
      response keeps every other header, and loses its own value for each of
      the security headers. */
  lemma AddSecurityHeadersOverlay(h: Headers, hstsSeconds: int)
    ensures AddSecurityHeaders(h, hstsSeconds) == h + SecurityHeaders(hstsSeconds)
  {
    var r := AddSecurityHeaders(h, hstsSeconds);
    var m := SecurityHeaders(hstsSeconds);
    var o := h + m;
    assert o.Keys == h.Keys + m.Keys;
    forall k | k in r
      ensures r[k] == o[k]
    {
      if k in m {
        AddSecurityHeadersManaged(h, hstsSeconds, k);
      }
    }
  }

  /** Running the middleware twice gives the same headers as running it once. */
  lemma AddSecurityHeadersIdempotent(h: Headers, hstsSeconds: int)
    ensures AddSecurityHeaders(AddSecurityHeaders(h, hstsSeconds), hstsSeconds) == AddSecurityHeaders(h, hstsSeconds)
  {
    var s := SecurityHeaders(hstsSeconds);
    AddSecurityHeadersOverlay(h, hstsSeconds);
    AddSecurityHeadersOverlay(h + s, hstsSeconds);
    assert (h + s) + s == h + s;
  }

  /** `X-XSS-Protection` is neither added nor changed. */
  lemma XssProtectionUntouched(h: Headers, hstsSeconds: int)
    ensures var r := AddSecurityHeaders(h, hstsSeconds);
            ("x-xss-protection" in r <==> "x-xss-protection" in h)
            && ("x-xss-protection" in h ==> r["x-xss-protection"] == h["x-xss-protection"])
  {
    assert "x-xss-protection" !in ManagedKeys(hstsSeconds);
  }

  /** The policy allows inline scripts. */
  lemma CspAllowsInlineScripts()
    ensures OccursAt(CspValue, "script-src 'self' 'unsafe-inline'", |DefaultSrc|)
  {
    assert CspValue[|DefaultSrc|..|DefaultSrc| + 33] == ScriptSrc[..33];
  }

  lemma DirectivesLackLetterO()
    ensures 'o' !in DefaultSrc && 'o' !in ScriptSrc
    ensures 'o' !in StyleSrc && 'o' !in ImgSrc
  {
  }

  /** The policy carries no nonce source: it has no letter `o` at all. */
  lemma CspHasNoNonce()
    ensures !Contains(CspValue, "'nonce-")
  {
    DirectivesLackLetterO();
    assert 'o' !in CspValue;
    MissingCharNotContained(CspValue, "'nonce-", 2);
  }

  /** The HSTS header states exactly the configured number of seconds. */
  lemma HstsValueRoundTrip(seconds: int)
    ensures var v := HstsValue(seconds);
            |v| >= 27 && v[..8] == "max-age=" && ParseInt(v[8..|v| - 19]) == Some(seconds)
            && v[|v| - 19..] == "; includeSubDomains"
  {
    var v := HstsValue(seconds);
    var digits := IntToString(seconds);
    assert v[8..|v| - 19] == digits;
    ParseIntToString(seconds);
  }
}

=== FILE: models.dfy ===
/** The business rules of the gym's records (`gimnasio/models.py`): what
    saving a subscription, a payment and a class enrollment does, and when a
    member counts as active. Records are immutable values, tables are
    sequences of rows, dates are day numbers and amounts are whole pesos. A
    primary key of 0 stands for "not saved yet" (Python's `not self.pk`). */
module Models {
  import opened Text

  /** A member: only its key and its kind (`interno`, `externo`, or any other
      text the field happens to hold) matter to the rules. */
  datatype Socio = Socio(pk: int, tipoSocio: string)

  datatype Suscripcion = Suscripcion(
    pk: int,
    socio: int,
    tipo: string,
    fechaInicio: int,
    fechaFin: int,
    activa: bool,
    montoTotal: int)

  /** A class; `participantes` is the set of member keys of its
      many-to-many relation. */
  datatype Clase = Clase(pk: int, precio: int, maxParticipantes: int, participantes: set<int>)

  datatype Pago = Pago(
    pk: int,
    socio: int,
    tipoPago: string,
    suscripcion: Option<Suscripcion>,
    clase: Option<Clase>,
    fechaPago: int,
    monto: int,
    metodo: Option<string>)

  /** An enrollment; `idInscripcion` is the `unique=True` text code, whose
      default is the empty string. */
  datatype Inscripcion = Inscripcion(pk: int, idInscripcion: string, socio: Socio, clase: Clase, pagoAsociado: Option<Pago>)

  // ===========================================================================
  // Suscripcion.save
  // ===========================================================================

  /** A plan as its menu label advertises it: price and length in days. */
  datatype Plan = Plan(price: int, days: int)

  /** The three plans of the `tipo` choices. */
  const Plans: map<string, Plan> := map[
    "mensual" := Plan(500, 30),
    "trimestral" := Plan(1500, 90),
    "anual" := Plan(6000, 365)]

  /** The plan a `tipo` is billed as: an unrecognised value falls through to
      the yearly plan. */
  function PlanOf(tipo: string): Plan {
    if tipo in Plans then Plans[tipo] else Plans["anual"]
  }

  /** The derived fields agree with the plan. */
  predicate PlanConsistent(s: Suscripcion) {
    s.montoTotal == PlanOf(s.tipo).price && s.fechaFin == s.fechaInicio + PlanOf(s.tipo).days
  }

  /** `Suscripcion.save`: on creation the price and end date are derived from
      the plan and the row gets the key `freshPk` the database hands out; a
      row that already has a key is stored exactly as given. */
  function SaveSuscripcion(s: Suscripcion, freshPk: int): (r: Suscripcion)
    requires freshPk > 0
    ensures r.pk != 0
    ensures r == s.(pk := r.pk, montoTotal := r.montoTotal, fechaFin := r.fechaFin)
    ensures s.pk != 0 ==> r == s
    ensures s.pk == 0 ==> r.pk == freshPk && PlanConsistent(r)
  {
    if s.pk != 0 then s
    else
      var priced :=
        if s.tipo == "mensual" then s.(montoTotal := 500, fechaFin := s.fechaInicio + 30)
        else if s.tipo == "trimestral" then s.(montoTotal := 1500, fechaFin := s.fechaInicio + 90)
        else s.(montoTotal := 6000, fechaFin := s.fechaInicio + 365);
      priced.(pk := freshPk)
  }

  /** Saving a stored subscription again changes nothing. */
  lemma SaveSuscripcionIdempotent(s: Suscripcion, k1: int, k2: int)
    requires k1 > 0 && k2 > 0
    ensures SaveSuscripcion(SaveSuscripcion(s, k1), k2) == SaveSuscripcion(s, k1)
  {
  }

  /** Derived fields are never recomputed: editing the plan of a stored
      subscription to one with another price leaves a stale row. */
  lemma EditedPlanGoesStale(s: Suscripcion, k1: int, k2: int, tipo: string)
    requires k1 > 0 && k2 > 0
    requires PlanOf(tipo).price != PlanOf(s.tipo).price
    requires s.pk == 0
    ensures var stored := SaveSuscripcion(s, k1);
            var edited := SaveSuscripcion(stored.(tipo := tipo), k2);
            edited.montoTotal == stored.montoTotal && !PlanConsistent(edited)
  {
  }

  // ===========================================================================
  // Pago.save
  // ===========================================================================

  /** The payment is tied to the subscription it pays for. */
  predicate PaysSubscription(p: Pago) {
    p.tipoPago == "gimnasio" && p.suscripcion.Some?
  }

  /** The payment is tied to the class it pays for. */
  predicate PaysClass(p: Pago) {
    p.tipoPago == "clase" && p.clase.Some?
  }

  /** `Pago.save`: the amount is taken from the linked subscription or class;
      an unlinked payment keeps the amount the caller gave. Nothing but the
      amount changes. */
  function SavePago(p: Pago): (r: Pago)
    ensures r == p.(monto := r.monto)
    ensures PaysSubscription(p) ==> r.monto == p.suscripcion.value.montoTotal
    ensures PaysClass(p) ==> r.monto == p.clase.value.precio
    ensures !PaysSubscription(p) && !PaysClass(p) ==> r == p
  {
    if p.tipoPago == "gimnasio" && p.suscripcion.Some? then p.(monto := p.suscripcion.value.montoTotal)
    else if p.tipoPago == "clase" && p.clase.Some? then p.(monto := p.clase.value.precio)
    else p
  }

  /** Saving a payment twice is saving it once. */
  lemma SavePagoIdempotent(p: Pago)
    ensures SavePago(SavePago(p)) == SavePago(p)
  {
  }

  /** For a linked payment the amount the caller typed is irrelevant. */
  lemma LinkedAmountIgnoresInput(p: Pago, m: int)
    requires PaysSubscription(p) || PaysClass(p)
    ensures SavePago(p.(monto := m)) == SavePago(p)
  {
  }

  /** Paying for a newly created subscription charges the plan's price. */
  lemma NewSubscriptionPaymentChargesPlan(p: Pago, s: Suscripcion, k: int)
    requires k > 0 && s.pk == 0
    requires p.tipoPago == "gimnasio"
    ensures SavePago(p.(suscripcion := Some(SaveSuscripcion(s, k)))).monto == PlanOf(s.tipo).price
  {
  }

  // ===========================================================================
  // Clase.participantes_actuales
  // ===========================================================================

  /** The number of members in the class's participant relation. */
  function ParticipantesActuales(c: Clase): (n: nat)
    ensures n == 0 <==> c.participantes == {}
    ensures forall s :: s in c.participantes ==> n > 0
  {
    |c.participantes|
  }

  /** Adding a member raises the count by one, unless the member was already
      a participant. */
  lemma ParticipantCountOnAdd(c: Clase, socio: int)
    ensures ParticipantesActuales(c.(participantes := c.participantes + {socio}))
            == ParticipantesActuales(c) + (if socio in c.participantes then 0 else 1)
  {
    if socio in c.participantes {
      assert c.participantes + {socio} == c.participantes;
    }
  }

  /** Distinct entries: each key listed once. */
  predicate NoRepeats(rows: seq<int>) {
    forall i, j :: 0 <= i < j < |rows| ==> rows[i] != rows[j]
  }

  /** `.count()` on the relation counts the rows of its join table, which
      holds each participant once: the count is the length of any listing of
      the participants without repeats. */
  lemma {:induction false} ParticipantCountMatchesListing(c: Clase, rows: seq<int>)
    requires NoRepeats(rows)
    requires forall x :: x in c.participantes <==> x in rows
    ensures ParticipantesActuales(c) == |rows|
    decreases |rows|
  {
    if rows != [] {
      var rest := c.(participantes := c.participantes - {rows[0]});
      forall x
        ensures x in rest.participantes <==> x in rows[1..]
      {
        if x in rows[1..] {
          var j :| 0 <= j < |rows[1..]| && rows[1..][j] == x;
          assert rows[j + 1] == x;
        }
      }
      ParticipantCountMatchesListing(rest, rows[1..]);
      assert rows[0] in c.participantes;
      assert c.participantes == rest.participantes + {rows[0]};
    } else {
      forall x
        ensures x !in c.participantes
      {
        assert x in c.participantes <==> x in rows;
      }
      assert c.participantes == {};
    }
  }

  /** Saving an enrollment never touches the class's participant relation:
      the stored row carries the class as given, so its count is unchanged
      and the member is a participant afterwards only if they were before.
      This holds by construction of the model, which records only that the
      save adds nothing to the many-to-many relation. */
  lemma EnrollmentLeavesParticipants(ins: Inscripcion, table: seq<Inscripcion>, subs: seq<Suscripcion>, pagos: seq<Pago>, today: int)
    requires SaveInscripcion(ins, table, subs, pagos, today).Success?
    ensures exists x :: x in SaveInscripcion(ins, table, subs, pagos, today).value
                        && x.socio == ins.socio
                        && ParticipantesActuales(x.clase) == ParticipantesActuales(ins.clase)
                        && (ins.socio.pk in x.clase.participantes <==> ins.socio.pk in ins.clase.participantes)
  {
    var k :| k != 0 && ins.(pk := k) in SaveInscripcion(ins, table, subs, pagos, today).value && (ins.pk != 0 ==> k == ins.pk);
    assert ins.(pk := k).clase == ins.clase;
  }

  // ===========================================================================
  // Socio.is_activo
  // ===========================================================================

  /** Window, in days, within which a payment keeps a non-internal member active. */
  const RecentPaymentDays := 30

  predicate ActiveOf(s: Suscripcion, owner: int) {
    s.socio == owner && s.activa
  }

  /** Among the `activa` subscriptions of `owner`, the one with the smallest
      key: what `.filter(activa=True).first()` returns on an unordered
      queryset, which Django orders by primary key. */
  function FirstActive(subs: seq<Suscripcion>, owner: int): (r: Option<Suscripcion>)
    ensures r.Some? ==> r.value in subs && ActiveOf(r.value, owner)
    ensures r.Some? ==> forall t :: t in subs && ActiveOf(t, owner) ==> r.value.pk <= t.pk
    ensures r.None? ==> forall t :: t in subs ==> !ActiveOf(t, owner)
    decreases |subs|
  {
    if subs == [] then None
    else
      var rest := FirstActive(subs[1..], owner);
      if !ActiveOf(subs[0], owner) then rest
      else if rest.None? || subs[0].pk <= rest.value.pk then Some(subs[0])
      else rest
  }

  /** Whether `owner` has a payment dated no earlier than `since`. */
  function HasPaymentSince(pagos: seq<Pago>, owner: int, since: int): (b: bool)
    ensures b <==> exists p :: p in pagos && p.socio == owner && p.fechaPago >= since
    decreases |pagos|
  {
    if pagos == [] then false
    else (pagos[0].socio == owner && pagos[0].fechaPago >= since) || HasPaymentSince(pagos[1..], owner, since)
  }

  /** `Socio.is_activo`: an internal member is active when its first active
      subscription has not ended before `today`; any other member is active
      when it paid within the last 30 days, both ends included. */
  function IsActivo(socio: Socio, subs: seq<Suscripcion>, pagos: seq<Pago>, today: int): (ok: bool)
    ensures socio.tipoSocio == "interno" ==>
      (ok <==> FirstActive(subs, socio.pk).Some? && FirstActive(subs, socio.pk).value.fechaFin >= today)
    ensures socio.tipoSocio != "interno" ==>
      (ok <==> exists p :: p in pagos && p.socio == socio.pk && today - p.fechaPago <= RecentPaymentDays)
  {
    if socio.tipoSocio == "interno" then
      match FirstActive(subs, socio.pk)
      case None => false
      case Some(s) => s.fechaFin >= today
    else
      HasPaymentSince(pagos, socio.pk, today - 30)
  }

  /** Primary keys are unique within a table. */
  predicate DistinctSubscriptionPks(subs: seq<Suscripcion>) {
    forall i, j :: 0 <= i < j < |subs| ==> subs[i].pk != subs[j].pk
  }

  /** Two positions holding the same key are the same position. */
  lemma DistinctPkIndex(subs: seq<Suscripcion>, i: int, j: int)
    requires DistinctSubscriptionPks(subs)
    requires 0 <= i < |subs| && 0 <= j < |subs| && subs[i].pk == subs[j].pk
    ensures i == j
  {
  }

  /** `s` is the earliest (smallest-key) active subscription of `owner`. */
  predicate EarliestActive(subs: seq<Suscripcion>, owner: int, s: Suscripcion) {
    s in subs && ActiveOf(s, owner) && forall t :: t in subs && ActiveOf(t, owner) ==> s.pk <= t.pk
  }

  /** With unique keys, an internal member is active exactly when its
      earliest active subscription runs until `today` or later. */
  lemma InternoActiveIffEarliestValid(socio: Socio, subs: seq<Suscripcion>, pagos: seq<Pago>, today: int)
    requires socio.tipoSocio == "interno"
    requires DistinctSubscriptionPks(subs)
    ensures IsActivo(socio, subs, pagos, today) <==>
      exists s :: EarliestActive(subs, socio.pk, s) && s.fechaFin >= today
  {
    var f := FirstActive(subs, socio.pk);
    if f.Some? {
      assert EarliestActive(subs, socio.pk, f.value);
      forall s | EarliestActive(subs, socio.pk, s)
        ensures s == f.value
      {
        var i :| 0 <= i < |subs| && subs[i] == s;
        var j :| 0 <= j < |subs| && subs[j] == f.value;
        DistinctPkIndex(subs, i, j);
      }
    }
  }

  /** A later active subscription (larger key than an existing active one)
      never changes an internal member's status. */
  lemma LaterActiveIgnored(socio: Socio, subs: seq<Suscripcion>, pagos: seq<Pago>, today: int, later: Suscripcion)
    requires socio.tipoSocio == "interno"
    requires exists s :: s in subs && ActiveOf(s, socio.pk) && s.pk < later.pk
    ensures IsActivo(socio, subs + [later], pagos, today) == IsActivo(socio, subs, pagos, today)
  {
    FirstActiveAppendLater(subs, socio.pk, later);
  }

  lemma {:induction false} FirstActiveAppendLater(subs: seq<Suscripcion>, owner: int, later: Suscripcion)
    requires exists s :: s in subs && ActiveOf(s, owner) && s.pk < later.pk
    ensures FirstActive(subs + [later], owner) == FirstActive(subs, owner)
    decreases |subs|
  {
    var s :| s in subs && ActiveOf(s, owner) && s.pk < later.pk;
    assert (subs + [later])[1..] == subs[1..] + [later];
    if subs[0] == s {
      if exists t :: t in subs[1..] && ActiveOf(t, owner) && t.pk < later.pk {
        FirstActiveAppendLater(subs[1..], owner, later);
      } else {
        FirstActiveAppendNone(subs[1..], owner, later);
      }
    } else {
      assert s in subs[1..];
      FirstActiveAppendLater(subs[1..], owner, later);
    }
  }

  /** Appending a row whose key is not above every active row's key cannot
      bring the first active row's key below it. */
  lemma {:induction false} FirstActiveAppendNone(subs: seq<Suscripcion>, owner: int, later: Suscripcion)
    requires forall t :: t in subs && ActiveOf(t, owner) ==> t.pk >= later.pk
    ensures var r := FirstActive(subs + [later], owner);
            r.None? || r.value.pk >= later.pk
    decreases |subs|
  {
    if subs != [] {
      assert (subs + [later])[1..] == subs[1..] + [later];
      FirstActiveAppendNone(subs[1..], owner, later);
    }
  }

  /** A non-internal member's status never depends on subscriptions. */
  lemma ExternoIgnoresSubscriptions(socio: Socio, subs1: seq<Suscripcion>, subs2: seq<Suscripcion>, pagos: seq<Pago>, today: int)
    requires socio.tipoSocio != "interno"
    ensures IsActivo(socio, subs1, pagos, today) == IsActivo(socio, subs2, pagos, today)
  {
  }

  // ===========================================================================
  // InscripcionClase.save and unique_together
  // ===========================================================================

  datatype SaveError = ValueError(message: string) | IntegrityError

  datatype Result<T> = Success(value: T) | Failure(error: SaveError)

  const MissingPagoMessage := "Todos los socios deben tener un pago asociado para inscribirse a clases."
  const InactiveInternoMessage := "Los socios internos deben tener suscripción activa para acceder al gym."

  /** Two different rows for the same member in the same class. */
  predicate SamePair(a: Inscripcion, b: Inscripcion) {
    a.socio.pk == b.socio.pk && a.clase.pk == b.clase.pk
  }

  /** The table's database constraints: keys are set and unique, the
      `id_inscripcion` codes are unique, and
      `unique_together = ('socio', 'clase')`. */
  predicate TableOk(table: seq<Inscripcion>) {
    && (forall i :: 0 <= i < |table| ==> table[i].pk != 0)
    && (forall i, j :: 0 <= i < j < |table| ==> table[i].pk != table[j].pk)
    && (forall i, j :: 0 <= i < j < |table| ==> table[i].idInscripcion != table[j].idInscripcion)
    && (forall i, j :: 0 <= i < j < |table| ==> !SamePair(table[i], table[j]))
  }

  /** The key the database hands out next: above every key in use. */
  function NextPk(table: seq<Inscripcion>): (k: int)
    ensures k > 0
    ensures forall i :: 0 <= i < |table| ==> table[i].pk < k
    decreases |table|
  {
    if table == [] then 1
    else
      var k := NextPk(table[1..]);
      if table[0].pk < k then k else table[0].pk + 1
  }

  /** Django's save: update the row with the same key, or insert it when
      there is none. */
  function Upsert(table: seq<Inscripcion>, row: Inscripcion): (r: seq<Inscripcion>)
    ensures row in r
    ensures forall x :: x in r ==> x == row || (x in table && x.pk != row.pk)
    ensures forall x :: x in table && x.pk != row.pk ==> x in r
  {
    if exists i :: 0 <= i < |table| && table[i].pk == row.pk then
      var r := ReplaceKeyed(table, row);
      ReplaceKeyedFacts(table, row);
      r
    else table + [row]
  }

  /** Every row with `row`'s key replaced by `row`. */
  function ReplaceKeyed(table: seq<Inscripcion>, row: Inscripcion): (r: seq<Inscripcion>)
    ensures |r| == |table|
    ensures forall i :: 0 <= i < |table| ==> r[i] == if table[i].pk == row.pk then row else table[i]
  {
    seq(|table|, i requires 0 <= i < |table| => if table[i].pk == row.pk then row else table[i])
  }

  lemma ReplaceKeyedFacts(table: seq<Inscripcion>, row: Inscripcion)
    requires exists i :: 0 <= i < |table| && table[i].pk == row.pk
    ensures row in ReplaceKeyed(table, row)
    ensures forall x :: x in ReplaceKeyed(table, row) ==> x == row || (x in table && x.pk != row.pk)
    ensures forall x :: x in table && x.pk != row.pk ==> x in ReplaceKeyed(table, row)
  {
    var r := ReplaceKeyed(table, row);
    var i :| 0 <= i < |table| && table[i].pk == row.pk;
    assert r[i] == row;
    forall x | x in table && x.pk != row.pk
      ensures x in r
    {
      var j :| 0 <= j < |table| && table[j] == x;
      assert r[j] == x;
    }
  }

  /** Storing `ins` would give its (member, class) pair or its
      `id_inscripcion` code a second row. */
  predicate Clashes(table: seq<Inscripcion>, ins: Inscripcion) {
    exists x :: x in table && (ins.pk == 0 || x.pk != ins.pk)
                && (SamePair(x, ins) || x.idInscripcion == ins.idInscripcion)
  }

  /** Whether the member may enroll: internal members must be active. */
  predicate MayEnroll(socio: Socio, subs: seq<Suscripcion>, pagos: seq<Pago>, today: int) {
    socio.tipoSocio != "interno" || IsActivo(socio, subs, pagos, today)
  }

  /** `InscripcionClase.save` against the enrollment table: a missing
      payment is refused first, then an internal member who is not active;
      the database then refuses a second enrollment of the same member in
      the same class; otherwise the row is stored. Class capacity is never
      consulted. */
  function SaveInscripcion(ins: Inscripcion, table: seq<Inscripcion>, subs: seq<Suscripcion>, pagos: seq<Pago>, today: int)
    : (r: Result<seq<Inscripcion>>)
    ensures ins.pagoAsociado.None? ==> r == Failure(ValueError(MissingPagoMessage))
    ensures ins.pagoAsociado.Some? && !MayEnroll(ins.socio, subs, pagos, today)
            ==> r == Failure(ValueError(InactiveInternoMessage))
    ensures ins.pagoAsociado.Some? && MayEnroll(ins.socio, subs, pagos, today) && Clashes(table, ins)
            ==> r == Failure(IntegrityError)
    ensures r.Success? <==>
      ins.pagoAsociado.Some? && MayEnroll(ins.socio, subs, pagos, today) && !Clashes(table, ins)
    ensures r.Success? ==> |table| <= |r.value| <= |table| + 1
    ensures r.Success? ==> exists k :: k != 0 && ins.(pk := k) in r.value && (ins.pk != 0 ==> k == ins.pk)
    ensures r.Success? ==> forall x :: x in table && x.pk != ins.pk ==> x in r.value
  {
    if ins.pagoAsociado.None? then Failure(ValueError(MissingPagoMessage))
    else if ins.socio.tipoSocio == "interno" && !IsActivo(ins.socio, subs, pagos, today) then
      Failure(ValueError(InactiveInternoMessage))
    else
      var row := if ins.pk == 0 then ins.(pk := NextPk(table)) else ins;
      if exists x :: x in table && x.pk != row.pk && (SamePair(x, row) || x.idInscripcion == row.idInscripcion) then
        Failure(IntegrityError)
      else
        assert ins.pk == 0 ==> row.pk != 0 && forall x :: x in table ==> x.pk != row.pk;
        Success(Upsert(table, row))
  }

  /** A successful save keeps the table's constraints: set, unique keys,
      unique codes and one row per (member, class) pair. */
  lemma SaveInscripcionKeepsTableOk(ins: Inscripcion, table: seq<Inscripcion>, subs: seq<Suscripcion>, pagos: seq<Pago>, today: int)
    requires TableOk(table)
    requires SaveInscripcion(ins, table, subs, pagos, today).Success?
    ensures TableOk(SaveInscripcion(ins, table, subs, pagos, today).value)
  {
    var row := if ins.pk == 0 then ins.(pk := NextPk(table)) else ins;
    var t := SaveInscripcion(ins, table, subs, pagos, today).value;
    assert t == Upsert(table, row);
    assert row.pk != 0;
    if exists i :: 0 <= i < |table| && table[i].pk == row.pk {
      assert t == ReplaceKeyed(table, row);
      forall i, j | 0 <= i < j < |t|
        ensures t[i].pk != t[j].pk && !SamePair(t[i], t[j]) && t[i].idInscripcion != t[j].idInscripcion
      {
        assert t[i].pk == table[i].pk && t[j].pk == table[j].pk;
        if table[i].pk == row.pk {
          assert table[j] in table;
        } else if table[j].pk == row.pk {
          assert table[i] in table;
        }
      }
    } else {
      assert t == table + [row];
      forall i, j | 0 <= i < j < |t|
        ensures t[i].pk != t[j].pk && !SamePair(t[i], t[j]) && t[i].idInscripcion != t[j].idInscripcion
      {
        if j == |table| {
          assert table[i] in table;
        }
      }
    }
  }

  /** Two enrollments left at the default empty code cannot both be stored:
      the second is refused by the database even for a different class. */
  lemma SecondBlankCodeRefused(ins: Inscripcion, table: seq<Inscripcion>, subs: seq<Suscripcion>, pagos: seq<Pago>, today: int, other: Inscripcion)
    requires ins.pagoAsociado.Some? && MayEnroll(ins.socio, subs, pagos, today)
    requires ins.pk == 0 && ins.idInscripcion == ""
    requires other in table && other.idInscripcion == ""
    ensures SaveInscripcion(ins, table, subs, pagos, today) == Failure(IntegrityError)
  {
  }

  /** A non-internal member who brings a payment is never refused for
      inactivity: only a duplicate enrollment can stop it. */
  lemma ExternoNeverRefusedForActivity(ins: Inscripcion, table: seq<Inscripcion>, subs: seq<Suscripcion>, pagos: seq<Pago>, today: int)
    requires ins.pagoAsociado.Some? && ins.socio.tipoSocio != "interno"
    ensures SaveInscripcion(ins, table, subs, pagos, today).Success? <==> !Clashes(table, ins)
  {
  }

  /** The verdict never depends on the class's capacity or its current
      participants. */
  lemma NoCapacityCheck(ins: Inscripcion, table: seq<Inscripcion>, subs: seq<Suscripcion>, pagos: seq<Pago>, today: int,
                        maxParticipantes: int, participantes: set<int>)
    ensures var full := ins.(clase := ins.clase.(maxParticipantes := maxParticipantes, participantes := participantes));
            SaveInscripcion(full, table, subs, pagos, today).Success? == SaveInscripcion(ins, table, subs, pagos, today).Success?
  {
  }
}

=== FILE: sanitizers.dfy ===
/** The sanitisers of `gimnasio/security.py`: text input, search queries,
    JavaScript strings, file names and template contexts. Every one is a pure
    function of its arguments; Django's `slugify` is a parameter. */
module Sanitizers {
  import opened Text
  import Html

  /** A Python value as far as the sanitisers tell values apart: a `str`, or
      something else. */
  datatype Value = Str(s: string) | Int(i: int) | Bool(b: bool) | Null

  // ===========================================================================
  // sanitize_text_input
  // ===========================================================================

  const MaxTextLength: nat := 1000

  /** Strips, keeps the first 1000 characters and HTML-escapes; a non-string
      gives the empty string. Unescaping the result gives back exactly the
      kept prefix of the stripped input; the result holds no raw markup
      character; because escaping runs after truncation, the result stays
      within 1000 characters only for text without special characters, and
      within 6000 in general. */
  function SanitizeTextInput(text: Value): (r: string)
    ensures !text.Str? ==> r == []
    ensures Html.MarkupFree(r)
    ensures |r| <= 6 * MaxTextLength
    ensures text.Str? ==>
      var t := Strip(text.s);
      Html.Unescape(r) == t[..Min(MaxTextLength, |t|)]
    ensures text.Str? && Html.NoSpecials(text.s) ==> |r| <= MaxTextLength
  {
    if !text.Str? then []
    else
      var t := Strip(text.s);
      var kept := SliceTo(t, MaxTextLength as int);
      Html.UnescapeEscape(kept);
      assert Html.NoSpecials(text.s) ==> Html.NoSpecials(kept) by {
        if Html.NoSpecials(text.s) {
          StripSliceNoSpecials(text.s, MaxTextLength as int);
        }
      }
      Html.Escape(kept)
  }

  /** The sanitiser is `escape(text.strip()[:1000])`. */
  lemma SanitizeTextInputIsEscape(s: string)
    ensures SanitizeTextInput(Str(s)) == Html.Escape(SliceTo(Strip(s), MaxTextLength as int))
  {
  }

  /** Escaping runs after truncation, so the order is visible in the
      length: 1000 or more `<` followed by `x` sanitise to 4000 characters,
      where truncating the escaped text would have given 1000. */
  lemma TruncationBeforeEscape(n: nat)
    requires n >= MaxTextLength
    ensures var s := Repeat('<', n) + "x";
            && |SanitizeTextInput(Str(s))| == 4 * MaxTextLength
            && |SliceTo(Html.Escape(Strip(s)), MaxTextLength as int)| == MaxTextLength
  {
    SanitizedBracketLength(n);
    EscapedBracketCut(n);
  }

  lemma SanitizedBracketLength(n: nat)
    requires n >= MaxTextLength
    ensures |SanitizeTextInput(Str(Repeat('<', n) + "x"))| == 4 * MaxTextLength
  {
    var s := Repeat('<', n) + "x";
    BracketRunKept(n);
    SanitizeTextInputIsEscape(s);
    Html.EscapeRun('<', MaxTextLength);
    Html.LessThanEntity();
  }

  lemma EscapedBracketCut(n: nat)
    requires n >= MaxTextLength
    ensures |SliceTo(Html.Escape(Strip(Repeat('<', n) + "x")), MaxTextLength as int)| == MaxTextLength
  {
    BracketRunKept(n);
  }

  /** The stripped, truncated run is its first 1000 brackets. */
  lemma BracketRunKept(n: nat)
    requires n >= MaxTextLength
    ensures var s := Repeat('<', n) + "x";
            Strip(s) == s && SliceTo(s, MaxTextLength as int) == Repeat('<', MaxTextLength)
  {
    RunThenTail('<', n, "x", MaxTextLength);
    StripFixedPoint(Repeat('<', n) + "x");
  }

  /** A run of `n` copies of `c` followed by `tail`: its first `m <= n`
      characters are `m` copies of `c`, and its ends are `c` and the tail's
      last character. */
  lemma RunThenTail(c: char, n: nat, tail: string, m: nat)
    requires 0 < m <= n && tail != []
    ensures var s := Repeat(c, n) + tail;
            s[..m] == Repeat(c, m) && s[0] == c && s[|s| - 1] == tail[|tail| - 1]
  {
  }

  lemma StripSliceNoSpecials(s: string, n: int)
    requires Html.NoSpecials(s)
    ensures Html.NoSpecials(SliceTo(Strip(s), n))
  {
    var t := Strip(s);
    var i :| 0 <= i <= i + |t| <= |s| && t == s[i..i + |t|];
    var kept := SliceTo(t, n);
    forall k | 0 <= k < |kept|
      ensures !Html.IsSpecial(kept[k])
    {
      assert kept[k] == t[k] == s[i + k];
    }
  }

  /** Escaping keeps any run of ordinary characters: a word without special
      characters inside a short, already-stripped input survives sanitising. */
  lemma SanitizeKeepsPlainWords(a: string, w: string, b: string)
    requires Strip(a + w + b) == a + w + b && |a + w + b| <= MaxTextLength
    requires Html.NoSpecials(w)
    ensures Contains(SanitizeTextInput(Str(a + w + b)), w)
  {
    var s := a + w + b;
    assert SliceTo(s, MaxTextLength as int) == s;
    SanitizeTextInputIsEscape(s);
    Html.EscapeKeepsPlainRun(a, w, b);
  }

  /** The script payload of the sanitiser test still contains `alert` after
      sanitising: escaping only rewrites `<`, `>` and the quotes. */
  lemma AlertIsPlain()
    ensures Html.NoSpecials("alert")
  {
  }

  lemma ScriptPayloadKeepsAlert()
    ensures Contains(SanitizeTextInput(Str("<script>" + "alert" + "(\"XSS\")</script>Texto")), "alert")
  {
    var a, w, b := "<script>", "alert", "(\"XSS\")</script>Texto";
    var s := a + w + b;
    assert s[0] == '<' && s[|s| - 1] == 'o';
    StripFixedPoint(s);
    AlertIsPlain();
    SanitizeKeepsPlainWords(a, w, b);
  }

  // ===========================================================================
  // sanitize_search_query
  // ===========================================================================

  /** The characters the search filter keeps: `\w`, `\s`, `-` and the
      accented vowels and `ñ` (which `\w` already covers). */
  predicate IsSearchChar(c: char) {
    IsWordChar(c) || IsSpace(c) || c == '-' || c in "áéíóúñ"
  }

  /** The characters a sanitised query may contain. */
  predicate IsQueryOutputChar(c: char) {
    IsWordChar(c) || c == ' ' || c == '-'
  }

  /** A search term character: kept by the filter and not whitespace. */
  predicate IsTermChar(c: char) {
    IsSearchChar(c) && !IsSpace(c)
  }

  /** `re.sub(r'[^\w\s\-áéíóúñ]', '', s)`. */
  function KeepSearchChars(s: string): (r: string)
    ensures |r| <= |s|
    ensures forall i :: 0 <= i < |r| ==> IsSearchChar(r[i])
  {
    if s == [] then []
    else (if IsSearchChar(s[0]) then [s[0]] else []) + KeepSearchChars(s[1..])
  }

  /** The filter works character by character: filtering a concatenation
      filters each part. */
  lemma {:induction false} KeepSearchCharsAppend(a: string, b: string)
    ensures KeepSearchChars(a + b) == KeepSearchChars(a) + KeepSearchChars(b)
    decreases |a|
  {
    if a != [] {
      var x, y := KeepSearchChars(a[1..]), KeepSearchChars(b);
      var h := if IsSearchChar(a[0]) then [a[0]] else [];
      calc {
        KeepSearchChars(a + b);
        { TailAppend(a, b); }
        h + KeepSearchChars(a[1..] + b);
        { KeepSearchCharsAppend(a[1..], b); }
        h + (x + y);
        { SeqAssoc(h, x, y); }
        KeepSearchChars(a) + y;
      }
    } else {
      assert a + b == b;
    }
  }

  /** A single character is kept exactly when it is a search character,
      and dropped exactly when it is not. */
  lemma KeepSearchCharsSingle(c: char)
    ensures KeepSearchChars([c]) == [c] <==> IsSearchChar(c)
    ensures KeepSearchChars([c]) == [] <==> !IsSearchChar(c)
  {
    assert [c][1..] == [];
  }

  /** `re.sub(r'\s+', ' ', s)`: every maximal whitespace run becomes one space. */
  function CollapseSpaces(s: string): (r: string)
    ensures |r| <= |s|
    ensures forall i :: 0 <= i < |r| - 1 ==> !(r[i] == ' ' && r[i + 1] == ' ')
    ensures (|r| > 0 && r[0] == ' ') <==> (|s| > 0 && IsSpace(s[0]))
    ensures (forall i :: 0 <= i < |s| ==> IsSearchChar(s[i])) ==>
              forall i :: 0 <= i < |r| ==> IsQueryOutputChar(r[i])
    decreases |s|
  {
    if s == [] then []
    else if IsSpace(s[0]) then
      var rest := StripLeft(s[1..]);
      [' '] + CollapseSpaces(rest)
    else [s[0]] + CollapseSpaces(s[1..])
  }

  /** A whitespace run between two pieces of text that do not touch it with
      whitespace of their own becomes exactly one space: collapsing the whole
      is collapsing each piece, joined by `" "`. */
  lemma CollapseSpacesRun(a: string, w: string, b: string)
    requires w != [] && AllSpace(w)
    requires a == [] || !IsSpace(a[|a| - 1])
    requires b == [] || !IsSpace(b[0])
    ensures CollapseSpaces(a + w + b) == CollapseSpaces(a) + " " + CollapseSpaces(b)
  {
    var x, y := CollapseSpaces(a), CollapseSpaces(b);
    calc {
      CollapseSpaces(a + w + b);
      { assert a + w + b == a + (w + b); }
      CollapseSpaces(a + (w + b));
      { CollapseAppend(a, w + b); }
      x + CollapseSpaces(w + b);
      { CollapseRunAtStart(w, b); }
      x + (" " + y);
      { SeqAssoc(x, " ", y); }
      x + " " + y;
    }
  }

  /** Text that does not end in whitespace collapses independently of what
      follows it: no whitespace run crosses the boundary. */
  lemma {:induction false} CollapseAppend(a: string, rest: string)
    requires a == [] || !IsSpace(a[|a| - 1])
    ensures CollapseSpaces(a + rest) == CollapseSpaces(a) + CollapseSpaces(rest)
    decreases |a|
  {
    if a == [] {
      assert a + rest == rest;
    } else if IsSpace(a[0]) {
      LeadingSpaceDropped(a, rest);
      CollapseAppend(StripLeft(a[1..]), rest);
      CollapseAppendSpace(a, rest);
    } else {
      CollapseAppend(a[1..], rest);
      CollapseAppendChar(a, rest);
    }
  }

  /** The step of `CollapseAppend` for text that starts with whitespace. */
  lemma CollapseAppendSpace(a: string, rest: string)
    requires a != [] && IsSpace(a[0]) && !IsSpace(a[|a| - 1])
    requires var a' := StripLeft(a[1..]);
             CollapseSpaces(a' + rest) == CollapseSpaces(a') + CollapseSpaces(rest)
    ensures CollapseSpaces(a + rest) == CollapseSpaces(a) + CollapseSpaces(rest)
  {
    var a' := StripLeft(a[1..]);
    var x, y := CollapseSpaces(a'), CollapseSpaces(rest);
    calc {
      CollapseSpaces(a + rest);
      { LeadingSpaceDropped(a, rest); }
      [' '] + CollapseSpaces(a' + rest);
      [' '] + (x + y);
      { SeqAssoc([' '], x, y); }
      ([' '] + x) + y;
      { LeadingSpaceDropped(a, rest); }
      CollapseSpaces(a) + y;
    }
  }

  /** The step of `CollapseAppend` for text that starts with any other
      character. */
  lemma CollapseAppendChar(a: string, rest: string)
    requires a != [] && !IsSpace(a[0])
    requires CollapseSpaces(a[1..] + rest) == CollapseSpaces(a[1..]) + CollapseSpaces(rest)
    ensures CollapseSpaces(a + rest) == CollapseSpaces(a) + CollapseSpaces(rest)
  {
    var x, y := CollapseSpaces(a[1..]), CollapseSpaces(rest);
    calc {
      CollapseSpaces(a + rest);
      { TailAppend(a, rest); CollapseCharStep(a + rest); }
      [a[0]] + CollapseSpaces(a[1..] + rest);
      [a[0]] + (x + y);
      { SeqAssoc([a[0]], x, y); }
      ([a[0]] + x) + y;
      { CollapseCharStep(a); }
      CollapseSpaces(a) + y;
    }
  }

  /** Collapsing text that starts with a non-space character copies it. */
  lemma CollapseCharStep(s: string)
    requires s != [] && !IsSpace(s[0])
    ensures CollapseSpaces(s) == [s[0]] + CollapseSpaces(s[1..])
  {
  }

  /** A whitespace run at the front becomes one leading space. */
  lemma CollapseRunAtStart(w: string, b: string)
    requires w != [] && AllSpace(w)
    requires b == [] || !IsSpace(b[0])
    ensures CollapseSpaces(w + b) == " " + CollapseSpaces(b)
  {
    TailAppend(w, b);
    assert AllSpace(w[1..]) by {
      assert forall i :: 0 <= i < |w[1..]| ==> w[1..][i] == w[i + 1];
    }
    StripLeftPrefix(w[1..], b);
  }

  /** Collapsing text that starts with whitespace, followed by `rest`: one
      space, then the collapse of the text's remainder after its leading
      whitespace, followed by `rest`. */
  lemma LeadingSpaceDropped(a: string, rest: string)
    requires a != [] && IsSpace(a[0]) && !IsSpace(a[|a| - 1])
    ensures CollapseSpaces(a + rest) == [' '] + CollapseSpaces(StripLeft(a[1..]) + rest)
    ensures CollapseSpaces(a) == [' '] + CollapseSpaces(StripLeft(a[1..]))
    ensures var r := StripLeft(a[1..]); r != [] && r[|r| - 1] == a[|a| - 1] && |r| < |a|
  {
    var t := a[1..];
    assert |t| > 0 && !IsSpace(t[|t| - 1]);
    var r := StripLeft(t);
    assert r[|r| - 1] == t[|t| - 1];
    StripLeftAppend(t, rest);
    TailAppend(a, rest);
  }

  /** Everything but whitespace. */
  function RemoveSpaces(s: string): string {
    if s == [] then []
    else (if IsSpace(s[0]) then [] else [s[0]]) + RemoveSpaces(s[1..])
  }

  /** The search terms of a text: its non-whitespace characters that the
      filter keeps, in order. */
  function TermChars(s: string): string {
    if s == [] then []
    else (if IsTermChar(s[0]) then [s[0]] else []) + TermChars(s[1..])
  }

  lemma {:induction false} RemoveSpacesAppend(a: string, b: string)
    ensures RemoveSpaces(a + b) == RemoveSpaces(a) + RemoveSpaces(b)
    decreases |a|
  {
    if a != [] {
      assert (a + b)[0] == a[0] && (a + b)[1..] == a[1..] + b;
      RemoveSpacesAppend(a[1..], b);
    } else {
      assert a + b == b;
    }
  }

  lemma {:induction false} RemoveSpacesOfSpaces(s: string)
    requires AllSpace(s)
    ensures RemoveSpaces(s) == []
    decreases |s|
  {
    if s != [] {
      RemoveSpacesOfSpaces(s[1..]);
    }
  }

  lemma {:induction false} RemoveSpacesStripLeft(t: string)
    ensures RemoveSpaces(StripLeft(t)) == RemoveSpaces(t)
    decreases |t|
  {
    if |t| > 0 && IsSpace(t[0]) {
      RemoveSpacesStripLeft(t[1..]);
    }
  }

  /** Collapsing whitespace never touches the other characters. */
  lemma {:induction false} CollapseKeepsTerms(s: string)
    ensures RemoveSpaces(CollapseSpaces(s)) == RemoveSpaces(s)
    decreases |s|
  {
    if s != [] {
      if IsSpace(s[0]) {
        var rest := StripLeft(s[1..]);
        var c := CollapseSpaces(rest);
        assert CollapseSpaces(s) == [' '] + c;
        assert ([' '] + c)[0] == ' ' && ([' '] + c)[1..] == c;
        CollapseKeepsTerms(rest);
        RemoveSpacesStripLeft(s[1..]);
      } else {
        var c := CollapseSpaces(s[1..]);
        assert CollapseSpaces(s) == [s[0]] + c;
        assert ([s[0]] + c)[0] == s[0] && ([s[0]] + c)[1..] == c;
        CollapseKeepsTerms(s[1..]);
      }
    }
  }

  /** The whitespace-free part of the filtered text is its search terms. */
  lemma {:induction false} FilterKeepsTerms(s: string)
    ensures RemoveSpaces(KeepSearchChars(s)) == TermChars(s)
    decreases |s|
  {
    if s != [] {
      var head := if IsSearchChar(s[0]) then [s[0]] else [];
      RemoveSpacesAppend(head, KeepSearchChars(s[1..]));
      FilterKeepsTerms(s[1..]);
    }
  }

  lemma QueryOutputHasNoSpecials(s: string)
    requires forall i :: 0 <= i < |s| ==> IsQueryOutputChar(s[i])
    ensures Html.NoSpecials(s)
  {
  }

  /** Strips, truncates to `maxLength` (Python slicing, so a negative bound
      counts from the end), drops every character outside `\w`, `\s`, `-`,
      collapses whitespace runs and HTML-escapes; `None` or the empty string
      gives the empty string. The result holds word characters, single spaces
      and hyphens only (so no `<`, `>`, `;`, quote or `&`, and the final
      escape changes nothing), is within `maxLength`, and keeps exactly the
      search-term characters of the truncated input, in order. */
  function SanitizeSearchQuery(query: Option<string>, maxLength: int): (r: string)
    ensures query.None? || query.value == [] ==> r == []
    ensures forall i :: 0 <= i < |r| ==> IsQueryOutputChar(r[i])
    ensures forall i :: 0 <= i < |r| - 1 ==> !(r[i] == ' ' && r[i + 1] == ' ')
    ensures 0 <= maxLength ==> |r| <= maxLength
    ensures query.Some? ==> RemoveSpaces(r) == TermChars(SliceTo(Strip(query.value), maxLength))
  {
    if query.None? || query.value == [] then []
    else
      var q := Strip(query.value);
      var cut := SliceTo(q, maxLength);
      var kept := KeepSearchChars(cut);
      var collapsed := CollapseSpaces(kept);
      QueryOutputHasNoSpecials(collapsed);
      CollapseKeepsTerms(kept);
      FilterKeepsTerms(cut);
      Html.Escape(collapsed)
  }

  /** The default `max_length` of `sanitize_search_query`. */
  const DefaultQueryLength := 100

  /** Word characters, hyphens and single spaces, not ending in a space. */
  predicate CleanRun(s: string) {
    && (forall i :: 0 <= i < |s| ==> IsQueryOutputChar(s[i]))
    && (forall i :: 0 <= i < |s| - 1 ==> !(s[i] == ' ' && s[i + 1] == ' '))
    && (s == [] || s[|s| - 1] != ' ')
  }

  /** A query that is already clean: a clean run that does not start with a
      space either. */
  predicate CleanQuery(q: string) {
    q != [] && q[0] != ' ' && CleanRun(q)
  }

  /** Text made of query characters only passes the filter unchanged. */
  lemma {:induction false} KeepSearchCharsClean(s: string)
    requires forall i :: 0 <= i < |s| ==> IsQueryOutputChar(s[i])
    ensures KeepSearchChars(s) == s
    decreases |s|
  {
    if s != [] {
      KeepSearchCharsClean(s[1..]);
      HeadTail(s);
    }
  }

  /** The only whitespace a sanitised query may contain is the plain space. */
  lemma QueryCharSpace(c: char)
    requires IsQueryOutputChar(c)
    ensures IsSpace(c) <==> c == ' '
  {
  }

  lemma CleanRunTail(s: string)
    requires CleanRun(s) && s != []
    ensures CleanRun(s[1..])
  {
    var t := s[1..];
    assert forall i :: 0 <= i < |t| ==> t[i] == s[i + 1];
  }

  /** On a clean run, collapsing copies the first character and goes on
      with the rest. */
  lemma CollapseStep(s: string)
    requires CleanRun(s) && s != []
    ensures CollapseSpaces(s) == [s[0]] + CollapseSpaces(s[1..])
  {
    QueryCharSpace(s[0]);
    if s[0] == ' ' {
      QueryCharSpace(s[1]);
      assert StripLeft(s[1..]) == s[1..];
    }
  }

  lemma {:induction false} CollapseSpacesClean(s: string)
    requires CleanRun(s)
    ensures CollapseSpaces(s) == s
    decreases |s|
  {
    if s != [] {
      CollapseStep(s);
      CleanRunTail(s);
      CollapseSpacesClean(s[1..]);
      HeadTail(s);
    }
  }

  /** A query that is already clean passes through the sanitiser unchanged
      when it fits in `max_length`. */
  lemma SearchQueryKeepsCleanQuery(q: string, maxLength: int)
    requires CleanQuery(q) && |q| <= maxLength
    ensures SanitizeSearchQuery(Some(q), maxLength) == q
  {
    StripFixedPoint(q);
    assert SliceTo(q, maxLength) == q;
    KeepSearchCharsClean(q);
    CollapseSpacesClean(q);
    QueryOutputHasNoSpecials(q);
  }

  /** Two clean words separated by any whitespace run come out joined by
      exactly one space, when the whole fits in `max_length`. */
  lemma SearchQueryJoinsWords(x: string, w: string, y: string, maxLength: int)
    requires CleanQuery(x) && CleanQuery(y)
    requires w != [] && AllSpace(w)
    requires |x + w + y| <= maxLength
    ensures SanitizeSearchQuery(Some(x + w + y), maxLength) == x + " " + y
  {
    var s := x + w + y;
    var j := x + " " + y;
    calc {
      SanitizeSearchQuery(Some(s), maxLength);
      { JoinedQueryStripped(x, w, y); assert SliceTo(s, maxLength) == s; }
      Html.Escape(CollapseSpaces(KeepSearchChars(s)));
      { JoinedQueryFiltered(x, w, y); }
      Html.Escape(CollapseSpaces(s));
      { JoinedQueryCollapsed(x, w, y); }
      Html.Escape(j);
      { JoinedQueryPlain(x, y); }
      j;
    }
  }

  lemma JoinedQueryStripped(x: string, w: string, y: string)
    requires CleanQuery(x) && CleanQuery(y)
    ensures Strip(x + w + y) == x + w + y
  {
    var s := x + w + y;
    QueryCharSpace(x[0]);
    QueryCharSpace(y[|y| - 1]);
    assert s[0] == x[0] && s[|s| - 1] == y[|y| - 1];
    StripFixedPoint(s);
  }

  lemma {:induction false} KeepSearchCharsSpaces(w: string)
    requires AllSpace(w)
    ensures KeepSearchChars(w) == w
    decreases |w|
  {
    if w != [] {
      KeepSearchCharsSpaces(w[1..]);
      HeadTail(w);
    }
  }

  lemma JoinedQueryFiltered(x: string, w: string, y: string)
    requires CleanQuery(x) && CleanQuery(y) && AllSpace(w)
    ensures KeepSearchChars(x + w + y) == x + w + y
  {
    assert x + w + y == x + (w + y);
    KeepSearchCharsAppend(x, w + y);
    KeepSearchCharsAppend(w, y);
    KeepSearchCharsClean(x);
    KeepSearchCharsClean(y);
    KeepSearchCharsSpaces(w);
  }

  lemma JoinedQueryCollapsed(x: string, w: string, y: string)
    requires CleanQuery(x) && CleanQuery(y)
    requires w != [] && AllSpace(w)
    ensures CollapseSpaces(x + w + y) == x + " " + y
  {
    QueryCharSpace(x[|x| - 1]);
    QueryCharSpace(y[0]);
    CollapseSpacesRun(x, w, y);
    CollapseSpacesClean(x);
    CollapseSpacesClean(y);
  }

  lemma JoinedQueryPlain(x: string, y: string)
    requires CleanQuery(x) && CleanQuery(y)
    ensures Html.Escape(x + " " + y) == x + " " + y
  {
    var j := x + " " + y;
    forall i | 0 <= i < |j|
      ensures IsQueryOutputChar(j[i])
    {
      if i < |x| {
        assert j[i] == x[i];
      } else if i > |x| {
        assert j[i] == y[i - |x| - 1];
      }
    }
    QueryOutputHasNoSpecials(j);
  }

  lemma NormalTextIsClean()
    ensures CleanQuery("Mar\U{ed}a Garc\U{ed}a")
  {
  }

  /** The plain name of the search test comes back unchanged. */
  lemma SearchQueryNormalText()
    ensures SanitizeSearchQuery(Some("Mar\U{ed}a Garc\U{ed}a"), DefaultQueryLength) == "Mar\U{ed}a Garc\U{ed}a"
  {
    NormalTextIsClean();
    SearchQueryKeepsCleanQuery("Mar\U{ed}a Garc\U{ed}a", DefaultQueryLength);
  }

  // ===========================================================================
  // escape_javascript_string
  // ===========================================================================

  /** The net effect of the backslash, newline and carriage-return replacements. */
  function JsChar(c: char): string {
    if c == '\\' then "\\\\"
    else if c == '\n' then "\\n"
    else if c == '\r' then "\\r"
    else [c]
  }

  function JsEncode(s: string): (r: string)
    ensures Html.MarkupFree(s) ==> Html.MarkupFree(r)
    ensures forall i :: 0 <= i < |r| ==> r[i] != '\n' && r[i] != '\r'
  {
    if s == [] then []
    else
      var h, t := JsChar(s[0]), JsEncode(s[1..]);
      assert Html.MarkupFree(s) ==> Html.MarkupFree(h) && Html.MarkupFree(s[1..]) by {
        if Html.MarkupFree(s) {
          assert forall i :: 0 <= i < |s[1..]| ==> s[1..][i] == s[i + 1];
        }
      }
      JsPieces(h, t);
      h + t
  }

  /** The two facts `JsEncode` keeps hold of a concatenation when they hold
      of both parts. */
  lemma JsPieces(h: string, t: string)
    requires forall i :: 0 <= i < |h| ==> h[i] != '\n' && h[i] != '\r'
    requires forall i :: 0 <= i < |t| ==> t[i] != '\n' && t[i] != '\r'
    ensures forall i :: 0 <= i < |h + t| ==> (h + t)[i] != '\n' && (h + t)[i] != '\r'
    ensures Html.MarkupFree(h) && Html.MarkupFree(t) ==> Html.MarkupFree(h + t)
  {
    assert forall i :: 0 <= i < |h + t| ==> (h + t)[i] == if i < |h| then h[i] else t[i - |h|];
  }

  lemma {:induction false} JsEncodeAppend(a: string, b: string)
    ensures JsEncode(a + b) == JsEncode(a) + JsEncode(b)
    decreases |a|
  {
    if a != [] {
      assert (a + b)[0] == a[0] && (a + b)[1..] == a[1..] + b;
      JsEncodeAppend(a[1..], b);
    } else {
      assert a + b == b;
    }
  }

  /** Reads the three escape sequences `\\`, `\n`, `\r` back. */
  function JsUnescape(s: string): string
    decreases |s|
  {
    if s == [] then []
    else if s[0] == '\\' && |s| >= 2 && s[1] == '\\' then "\\" + JsUnescape(s[2..])
    else if s[0] == '\\' && |s| >= 2 && s[1] == 'n' then "\n" + JsUnescape(s[2..])
    else if s[0] == '\\' && |s| >= 2 && s[1] == 'r' then "\r" + JsUnescape(s[2..])
    else [s[0]] + JsUnescape(s[1..])
  }

  lemma {:induction false} JsUnescapeEncode(s: string)
    ensures JsUnescape(JsEncode(s)) == s
    decreases |s|
  {
    if s != [] {
      var e := JsChar(s[0]);
      var rest := JsEncode(s[1..]);
      assert JsEncode(s) == e + rest;
      assert (e + rest)[|e|..] == rest;
      JsUnescapeEncode(s[1..]);
      assert [s[0]] + s[1..] == s;
    }
  }

  /** The three substitutions that matter, applied one after the other,
      amount to `JsChar` on every character. */
  lemma {:induction false} JsLayers(t: string)
    ensures SubstChar(SubstChar(SubstChar(t, '\\', "\\\\"), '\n', "\\n"), '\r', "\\r") == JsEncode(t)
    decreases |t|
  {
    if t != [] {
      var c := t[0];
      var h1 := if c == '\\' then "\\\\" else [c];
      var r1 := SubstChar(t[1..], '\\', "\\\\");
      assert SubstChar(t, '\\', "\\\\") == h1 + r1;
      SubstCharAppend(h1, r1, '\n', "\\n");
      var h2 := SubstChar(h1, '\n', "\\n");
      var r2 := SubstChar(r1, '\n', "\\n");
      SubstCharAppend(h2, r2, '\r', "\\r");
      if c == '\n' {
        assert SubstChar(h1, '\n', "\\n") == "\\n" + SubstChar([], '\n', "\\n");
      }
      assert SubstChar(h2, '\r', "\\r") == JsChar(c) by {
        if c == '\r' {
          assert SubstChar(h2, '\r', "\\r") == "\\r" + SubstChar([], '\r', "\\r");
        }
      }
      JsLayers(t[1..]);
    }
  }

  lemma SubstCharKeepsAbsent(s: string, c: char, rep: string, x: char)
    requires x !in s && x !in rep
    ensures x !in SubstChar(s, c, rep)
    decreases |s|
  {
    if s != [] {
      assert x !in s[1..];
      SubstCharKeepsAbsent(s[1..], c, rep, x);
    }
  }

  /** HTML-escapes, then doubles backslashes and rewrites newline and carriage
      return as `\n` and `\r`; a non-string gives the empty string. The
      quote replacements of the source find nothing to replace, since escaping
      already turned the quotes into entities. The result holds no raw quote,
      angle bracket, newline or carriage return, and reading the escape
      sequences and then the entities back recovers the input exactly. */
  function EscapeJavascriptString(text: Value): (r: string)
    ensures !text.Str? ==> r == []
    ensures Html.MarkupFree(r)
    ensures forall i :: 0 <= i < |r| ==> r[i] != '\n' && r[i] != '\r'
    ensures text.Str? ==> Html.Unescape(JsUnescape(r)) == text.s
    ensures text.Str? ==> r == JsEncode(Html.Escape(text.s))
  {
    if !text.Str? then []
    else
      var t := Html.Escape(text.s);
      var t1 := Replace(t, "\\", "\\\\");
      var t2 := Replace(t1, "\"", "\\\"");
      var t3 := Replace(t2, "'", "\\'");
      var t4 := Replace(t3, "\n", "\\n");
      var r := Replace(t4, "\r", "\\r");
      ReplaceOneChar(t, '\\', "\\\\");
      ReplaceOneChar(t1, '"', "\\\"");
      ReplaceOneChar(t2, '\'', "\\'");
      ReplaceOneChar(t3, '\n', "\\n");
      ReplaceOneChar(t4, '\r', "\\r");
      assert '"' !in t && '\'' !in t;
      SubstCharKeepsAbsent(t, '\\', "\\\\", '"');
      SubstCharKeepsAbsent(t, '\\', "\\\\", '\'');
      JsLayers(t);
      JsUnescapeEncode(t);
      Html.UnescapeEscape(text.s);
      r
  }

  /** Escaping for JavaScript works piece by piece. */
  lemma EscapeJavascriptAppend(a: string, b: string)
    ensures EscapeJavascriptString(Str(a + b)) == EscapeJavascriptString(Str(a)) + EscapeJavascriptString(Str(b))
  {
    Html.EscapeAppend(a, b);
    JsEncodeAppend(Html.Escape(a), Html.Escape(b));
  }

  lemma {:induction false} JsEncodePlain(s: string)
    requires forall i :: 0 <= i < |s| ==> s[i] != '\\' && s[i] != '\n' && s[i] != '\r'
    ensures JsEncode(s) == s
    decreases |s|
  {
    if s != [] {
      JsEncodePlain(s[1..]);
    }
  }

  /** Text with no character that either escaping step rewrites is unchanged. */
  lemma EscapeJavascriptPlain(s: string)
    requires PlainJs(s)
    ensures EscapeJavascriptString(Str(s)) == s
  {
    JsEncodePlain(s);
  }

  /** Text the JavaScript escaper leaves alone: no special HTML character,
      backslash, newline or carriage return. */
  predicate PlainJs(s: string) {
    Html.NoSpecials(s) && forall i :: 0 <= i < |s| ==> s[i] != '\\' && s[i] != '\n' && s[i] != '\r'
  }

  /** A double quote becomes its HTML entity, and stays so. */
  lemma EscapeJavascriptQuote()
    ensures EscapeJavascriptString(Str("\"")) == "&quot;"
  {
    assert Html.Escape("\"") == "&quot;";
    JsEncodePlain("&quot;");
  }

  lemma EscapeJavascriptNewline()
    ensures EscapeJavascriptString(Str("\n")) == "\\n"
  {
    assert JsEncode("\n") == "\\n";
  }

  lemma EscapeJavascriptReturn()
    ensures EscapeJavascriptString(Str("\r")) == "\\r"
  {
    assert JsEncode("\r") == "\\r";
  }

  /** The shape of the JavaScript test input (`test"value\nwith\rspecial`):
      the double quote comes out as the entity `&quot;`, not as a
      backslash-escaped quote, while newline and carriage return become the
      two-character sequences `\n` and `\r`. */
  lemma EscapeJavascriptShape(a: string, b: string, c: string, d: string)
    requires PlainJs(a) && PlainJs(b) && PlainJs(c) && PlainJs(d)
    ensures EscapeJavascriptString(Str(a + "\"" + b + "\n" + c + "\r" + d))
            == a + "&quot;" + b + "\\n" + c + "\\r" + d
  {
    EscapeJavascriptPlain(a);
    EscapeJavascriptPlain(b);
    EscapeJavascriptPlain(c);
    EscapeJavascriptPlain(d);
    EscapeJavascriptQuote();
    EscapeJavascriptNewline();
    EscapeJavascriptReturn();
    EscapeJavascriptAppend(a, "\"");
    EscapeJavascriptAppend(a + "\"", b);
    EscapeJavascriptAppend(a + "\"" + b, "\n");
    EscapeJavascriptAppend(a + "\"" + b + "\n", c);
    EscapeJavascriptAppend(a + "\"" + b + "\n" + c, "\r");
    EscapeJavascriptAppend(a + "\"" + b + "\n" + c + "\r", d);
  }

  /** No input ever yields a backslash-escaped double quote. */
  lemma NoBackslashQuote(text: Value)
    ensures !Contains(EscapeJavascriptString(text), "\\\"")
  {
    var r := EscapeJavascriptString(text);
    forall i | 0 <= i <= |r|
      ensures !OccursAt(r, "\\\"", i)
    {
      if i + 2 <= |r| {
        assert r[i..i + 2][1] == r[i + 1] != '"';
      }
    }
  }

  // ===========================================================================
  // sanitize_filename
  // ===========================================================================

  const AllowedExtensions: seq<string> :=
    ["pdf", "txt", "doc", "docx", "xls", "xlsx", "csv", "jpg", "jpeg", "png", "gif"]

  /** `filename.replace('../', '').replace('..\\', '')`: one pass each. It
      never lengthens the name, leaves a name with neither sequence as it is
      and shortens every other. */
  function RemoveTraversal(filename: string): (r: string)
    ensures |r| <= |filename|
    ensures !Contains(filename, "../") && !Contains(filename, "..\\") ==> r == filename
    ensures Contains(filename, "../") || Contains(filename, "..\\") ==> |r| < |filename|
  {
    Replace(Replace(filename, "../", ""), "..\\", "")
  }

  /** `s.rsplit('.', 1)` when `s` has a dot, `(s, '')` otherwise. */
  function SplitLastDot(s: string): (parts: (string, string))
    ensures '.' in s ==> s == parts.0 + "." + parts.1 && '.' !in parts.1
    ensures '.' !in s ==> parts == (s, "")
  {
    match LastIndexOfChar(s, '.')
    case None => (s, "")
    case Some(i) =>
      assert s == s[..i] + "." + s[i + 1..];
      (s[..i], s[i + 1..])
  }

  /** Removes `../` and `..\`, slugifies the part before the last dot and
      keeps the extension, lower-cased, only when it is one of the eleven
      allowed ones; otherwise the bare slug. */
  function SanitizeFilename(filename: string, slugify: string -> string): (r: string)
    ensures var name := SplitLastDot(RemoveTraversal(filename)).0;
      r == slugify(name) || exists e :: e in AllowedExtensions && r == slugify(name) + "." + e
  {
    var cleaned := RemoveTraversal(filename);
    var (name, ext) := SplitLastDot(cleaned);
    var safeName := slugify(name);
    if ext != [] && Lower(ext) in AllowedExtensions then safeName + "." + Lower(ext)
    else safeName
  }

  /** The split at the last dot is the only split whose extension has no dot. */
  lemma SplitLastDotUnique(s: string, name: string, ext: string)
    requires s == name + "." + ext && '.' !in ext
    ensures SplitLastDot(s) == (name, ext)
  {
    assert s[|name|] == '.';
    var (n, e) := SplitLastDot(s);
    assert |e| == |ext|;
    assert e == s[|s| - |e|..] == ext;
    assert n == s[..|n|] == name;
  }

  /** An allowed extension, in any letter case, is kept in lower case after
      the slugified name. */
  lemma SanitizeFilenameAllowed(filename: string, slugify: string -> string, name: string, ext: string)
    requires RemoveTraversal(filename) == name + "." + ext && '.' !in ext
    requires Lower(ext) in AllowedExtensions
    ensures SanitizeFilename(filename, slugify) == slugify(name) + "." + Lower(ext)
  {
    SplitLastDotUnique(RemoveTraversal(filename), name, ext);
  }

  /** Any other extension, the empty one included, is dropped. */
  lemma SanitizeFilenameOther(filename: string, slugify: string -> string, name: string, ext: string)
    requires RemoveTraversal(filename) == name + "." + ext && '.' !in ext
    requires Lower(ext) !in AllowedExtensions
    ensures SanitizeFilename(filename, slugify) == slugify(name)
  {
    SplitLastDotUnique(RemoveTraversal(filename), name, ext);
  }

  lemma {:induction false} ReplaceAbsent(s: string, pat: string, rep: string)
    requires pat != [] && pat[0] !in s
    ensures Replace(s, pat, rep) == s
    decreases |s|
  {
    if |s| >= |pat| {
      assert s[..|pat|][0] == s[0];
      assert pat[0] !in s[1..];
      ReplaceAbsent(s[1..], pat, rep);
    }
  }

  /** A name left without any dot once the traversal sequences are removed
      is just slugified, with no extension. */
  lemma SanitizeFilenameNoDot(filename: string, slugify: string -> string)
    requires '.' !in RemoveTraversal(filename)
    ensures SanitizeFilename(filename, slugify) == slugify(RemoveTraversal(filename))
  {
  }

  /** A leading `../` is dropped: `../a` is saved as the slug of `a`. */
  lemma TraversalPrefixDropped(s: string, slugify: string -> string)
    requires '.' !in s
    ensures RemoveTraversal("../" + s) == s
    ensures SanitizeFilename("../" + s, slugify) == slugify(s)
  {
    var f := "../" + s;
    assert f[..3] == "../" && f[3..] == s;
    ReplaceAbsent(s, "../", "");
    assert Replace(f, "../", "") == s;
    ReplaceAbsent(s, "..\\", "");
    SanitizeFilenameNoDot(f, slugify);
  }

  /** The traversal removal is a single pass, so nested sequences leave a
      `../` behind. */
  lemma TraversalRemovalSinglePass()
    ensures RemoveTraversal("..././") == "../"
  {
    var s := "..././";
    assert s[..3] != "../" by { assert s[2] == '.'; }
    assert s[1..][..3] == "../";
    assert Replace(s, "../", "") == "." + Replace(s[1..], "../", "");
    assert s[1..][3..] == "./";
    assert Replace("./", "../", "") == "./";
    assert Replace(s, "../", "") == "../";
    assert "../"[..3] != "..\\" by { assert "../"[2] != "..\\"[2]; }
    assert Replace("../", "..\\", "") == "." + Replace("./", "..\\", "");
  }

  /** A `../` inside a name is cut out, not just a leading one: dot-free text
      before it is kept, and the rest of the name is cleaned on its own. So
      `report../x.pdf` is cleaned to `reportx.pdf` before slugifying. */
  lemma TraversalRemovedInside(a: string, b: string)
    requires '.' !in a
    ensures RemoveTraversal(a + "../" + b) == a + RemoveTraversal(b)
  {
    ReplaceAfterPlain(a, b, "../", "");
    assert a + "" + Replace(b, "../", "") == a + Replace(b, "../", "");
    ReplacePlainPrefix(a, Replace(b, "../", ""), "..\\", "");
  }

  /** The same for `..\`: between dot-free parts it is cut out, and the
      parts are joined. */
  lemma BackslashTraversalRemovedInside(a: string, b: string)
    requires '.' !in a && '.' !in b
    ensures RemoveTraversal(a + "..\\" + b) == a + b
  {
    var x := "..\\" + b;
    assert a + "..\\" + b == a + x;
    ReplacePlainPrefix(a, x, "../", "");
    BackslashSequenceKept(b);
    BackslashSequenceCut(a, b);
  }

  /** The first pass, looking for `../`, leaves `..\` and a dot-free rest alone. */
  lemma BackslashSequenceKept(b: string)
    requires '.' !in b
    ensures Replace("..\\" + b, "../", "") == "..\\" + b
  {
    var x := "..\\" + b;
    assert !OccursAt(x, "../", 0) by { assert x[..3][2] != "../"[2]; }
    ReplaceSkip(x, "../", "");
    var y := x[1..];
    assert !OccursAt(y, "../", 0) by {
      if 3 <= |y| { assert y[..3][1] != "../"[1]; }
    }
    ReplaceSkip(y, "../", "");
    assert y[1..] == "\\" + b;
    ReplaceAbsent("\\" + b, "../", "");
    assert [x[0]] + ([y[0]] + y[1..]) == x;
  }

  /** The second pass cuts `..\` out after dot-free text. */
  lemma BackslashSequenceCut(a: string, b: string)
    requires '.' !in a && '.' !in b
    ensures Replace(a + "..\\" + b, "..\\", "") == a + b
  {
    ReplaceAfterPlain(a, b, "..\\", "");
    ReplaceAbsent(b, "..\\", "");
    assert a + "" + b == a + b;
  }

  // ===========================================================================
  // create_safe_context
  // ===========================================================================

  /** Sanitises every string value with `SanitizeTextInput`; other values and
      all keys stay as they are. */
  function CreateSafeContext(data: map<string, Value>): (r: map<string, Value>)
    ensures r.Keys == data.Keys
    ensures forall k :: k in data && !data[k].Str? ==> r[k] == data[k]
    ensures forall k :: k in data && data[k].Str? ==>
      && r[k].Str? && Html.MarkupFree(r[k].s) && |r[k].s| <= 6 * MaxTextLength
      && Html.Unescape(r[k].s) == SliceTo(Strip(data[k].s), MaxTextLength as int)
  {
    map k | k in data :: if data[k].Str? then Str(SanitizeTextInput(data[k])) else data[k]
  }
}

=== FILE: text.dfy ===
/** String primitives of the Python runtime that the gym application relies on:
    character classes, `str.strip`, slicing, `str.replace`, case mapping and
    substring search. Character classes follow Python's Unicode tables
    restricted to the Latin-1 range; case mapping is ASCII. */
module Text {

  datatype Option<+T> = None | Some(value: T)

  // ---------------------------------------------------------------------------
  // Character classes
  // ---------------------------------------------------------------------------

  /** `str.isspace` (and the `\s` class of a `str` regex) on Latin-1. */
  predicate IsSpace(c: char) {
    c == ' ' || ('\t' <= c <= '\r') || ('\U{1c}' <= c <= '\U{1f}') || c == '\U{85}' || c == '\U{a0}'
  }

  /** The `\d` class: Unicode decimal digits, which in Latin-1 are the ASCII digits. */
  predicate IsDigit(c: char) {
    '0' <= c <= '9'
  }

  predicate IsAsciiUpper(c: char) {
    'A' <= c <= 'Z'
  }

  predicate IsAsciiLower(c: char) {
    'a' <= c <= 'z'
  }

  predicate IsAsciiLetter(c: char) {
    IsAsciiUpper(c) || IsAsciiLower(c)
  }

  /** The `\w` class of a `str` regex on Latin-1: alphanumerics (letters,
      digits, superscripts, fractions, ª, µ, º) and the underscore. */
  predicate IsWordChar(c: char) {
    || IsAsciiLetter(c) || IsDigit(c) || c == '_'
    || c == '\U{aa}' || c == '\U{b2}' || c == '\U{b3}' || c == '\U{b5}'
    || c == '\U{b9}' || c == '\U{ba}' || ('\U{bc}' <= c <= '\U{be}')
    || ('\U{c0}' <= c <= '\U{ff}' && c != '\U{d7}' && c != '\U{f7}')
  }

  predicate AllSpace(s: string) {
    forall i :: 0 <= i < |s| ==> IsSpace(s[i])
  }

  predicate AllDigits(s: string) {
    forall i :: 0 <= i < |s| ==> IsDigit(s[i])
  }

  lemma AllSpaceConcat(a: string, b: string)
    requires AllSpace(a) && AllSpace(b)
    ensures AllSpace(a + b)
  {
    assert forall i :: 0 <= i < |a + b| ==> (a + b)[i] == if i < |a| then a[i] else b[i - |a|];
  }

  /** `n` copies of `c` (Python's `c * n`). */
  function Repeat(c: char, n: nat): (r: string)
    ensures |r| == n
    ensures forall i :: 0 <= i < n ==> r[i] == c
  {
    seq(n, _ => c)
  }

  /** A non-empty string is its first character followed by the rest. */
  lemma HeadTail(s: string)
    requires s != []
    ensures [s[0]] + s[1..] == s
  {
  }

  /** Dropping the first character of a concatenation whose left part is
      non-empty drops it from the left part. */
  lemma TailAppend(a: string, b: string)
    requires a != []
    ensures (a + b)[0] == a[0] && (a + b)[1..] == a[1..] + b
  {
  }

  /** Concatenation is associative. */
  lemma SeqAssoc(p: string, x: string, y: string)
    ensures p + (x + y) == (p + x) + y
  {
  }

  // ---------------------------------------------------------------------------
  // str.strip()
  // ---------------------------------------------------------------------------

  /** `str.lstrip()`: drops the leading whitespace, and only it. */
  function StripLeft(s: string): (r: string)
    ensures |r| <= |s| && r == s[|s| - |r|..]
    ensures AllSpace(s[..|s| - |r|])
    ensures r == [] || !IsSpace(r[0])
  {
    if |s| > 0 && IsSpace(s[0]) then
      var r := StripLeft(s[1..]);
      assert s[..|s| - |r|] == [s[0]] + s[1..][..|s[1..]| - |r|];
      r
    else s
  }

  /** `str.rstrip()`: drops the trailing whitespace, and only it. */
  function StripRight(s: string): (r: string)
    ensures |r| <= |s| && r == s[..|r|]
    ensures AllSpace(s[|r|..])
    ensures r == [] || !IsSpace(r[|r| - 1])
  {
    if |s| > 0 && IsSpace(s[|s| - 1]) then
      var r := StripRight(s[..|s| - 1]);
      assert s[|r|..] == s[..|s| - 1][|r|..] + [s[|s| - 1]];
      r
    else s
  }

  /** `str.strip()`: the input is the result surrounded by whitespace only,
      and the result neither starts nor ends with whitespace. */
  function Strip(s: string): (r: string)
    ensures exists i :: 0 <= i <= i + |r| <= |s| && r == s[i..i + |r|] && AllSpace(s[..i]) && AllSpace(s[i + |r|..])
    ensures r == [] || (!IsSpace(r[0]) && !IsSpace(r[|r| - 1]))
  {
    var l := StripLeft(s);
    var r := StripRight(l);
    StripWitness(s, l, r);
    r
  }

  /** Stripping the left and then the right leaves `r` framed by whitespace
      in `s`. */
  lemma StripWitness(s: string, l: string, r: string)
    requires |l| <= |s| && l == s[|s| - |l|..] && AllSpace(s[..|s| - |l|])
    requires |r| <= |l| && r == l[..|r|] && AllSpace(l[|r|..])
    ensures exists i :: 0 <= i <= i + |r| <= |s| && r == s[i..i + |r|] && AllSpace(s[..i]) && AllSpace(s[i + |r|..])
  {
    var i := |s| - |l|;
    assert r == s[i..i + |r|];
    assert s[i + |r|..] == l[|r|..];
  }

  /** A string with no surrounding whitespace is its own strip. */
  lemma StripFixedPoint(s: string)
    requires s == [] || (!IsSpace(s[0]) && !IsSpace(s[|s| - 1]))
    ensures Strip(s) == s
  {
  }

  /** Nothing but whitespace strips to nothing. */
  lemma StripAllSpace(s: string)
    requires AllSpace(s)
    ensures Strip(s) == []
  {
    StripSurrounded(s, [], []);
    assert s + [] + [] == s;
    StripFixedPoint([]);
  }

  lemma {:induction false} StripLeftPrefix(ws: string, s: string)
    requires AllSpace(ws)
    ensures StripLeft(ws + s) == StripLeft(s)
    decreases |ws|
  {
    if ws != [] {
      assert (ws + s)[1..] == ws[1..] + s;
      StripLeftPrefix(ws[1..], s);
    } else {
      assert ws + s == s;
    }
  }

  lemma {:induction false} StripRightSuffix(s: string, ws: string)
    requires AllSpace(ws)
    ensures StripRight(s + ws) == StripRight(s)
    decreases |ws|
  {
    if ws != [] {
      assert (s + ws)[..|s + ws| - 1] == s + ws[..|ws| - 1];
      StripRightSuffix(s, ws[..|ws| - 1]);
    } else {
      assert s + ws == s;
    }
  }

  /** Left-stripping a string that still has a non-space character leaves any
      trailing text untouched. */
  lemma {:induction false} StripLeftAppend(s: string, t: string)
    requires exists k :: 0 <= k < |s| && !IsSpace(s[k])
    ensures StripLeft(s + t) == StripLeft(s) + t
    decreases |s|
  {
    if IsSpace(s[0]) {
      var k :| 0 <= k < |s| && !IsSpace(s[k]);
      assert k > 0 && !IsSpace(s[1..][k - 1]);
      assert (s + t)[1..] == s[1..] + t;
      StripLeftAppend(s[1..], t);
    }
  }

  /** Surrounding whitespace never changes the strip. */
  lemma StripSurrounded(ws1: string, s: string, ws2: string)
    requires AllSpace(ws1) && AllSpace(ws2)
    ensures Strip(ws1 + s + ws2) == Strip(s)
  {
    assert ws1 + s + ws2 == ws1 + (s + ws2);
    StripLeftPrefix(ws1, s + ws2);
    if exists k :: 0 <= k < |s| && !IsSpace(s[k]) {
      StripLeftAppend(s, ws2);
      StripRightSuffix(StripLeft(s), ws2);
    } else {
      assert AllSpace(s);
      AllSpaceConcat(s, ws2);
      StripLeftPrefix(s + ws2, []);
      StripLeftPrefix(s, []);
      assert s + ws2 + [] == s + ws2 && s + [] == s;
    }
  }

  // ---------------------------------------------------------------------------
  // Slicing
  // ---------------------------------------------------------------------------

  function Min(a: int, b: int): int {
    if a <= b then a else b
  }

  /** Python's `s[:n]`: a prefix of `s`; a negative `n` counts from the end. */
  function SliceTo(s: string, n: int): (r: string)
    ensures |r| <= |s| && r == s[..|r|]
    ensures 0 <= n ==> |r| == Min(n, |s|)
    ensures n < 0 ==> |r| == if |s| + n <= 0 then 0 else |s| + n
  {
    if 0 <= n then (if n <= |s| then s[..n] else s)
    else if |s| + n <= 0 then []
    else s[..|s| + n]
  }

  // ---------------------------------------------------------------------------
  // Case mapping
  // ---------------------------------------------------------------------------

  function UpperChar(c: char): char {
    if IsAsciiLower(c) then (c as int - 32) as char else c
  }

  function LowerChar(c: char): char {
    if IsAsciiUpper(c) then (c as int + 32) as char else c
  }

  /** `str.upper()` on ASCII letters: no lower-case letter is left, and
      every other character stays where it was. */
  function Upper(s: string): (r: string)
    ensures |r| == |s|
    ensures forall i :: 0 <= i < |r| ==> !IsAsciiLower(r[i])
    ensures forall i :: 0 <= i < |s| && !IsAsciiLower(s[i]) ==> r[i] == s[i]
    ensures forall i :: 0 <= i < |s| && IsAsciiLower(s[i]) ==> IsAsciiUpper(r[i]) && LowerChar(r[i]) == s[i]
    ensures forall i :: 0 <= i < |s| ==> r[i] == UpperChar(s[i])
  {
    seq(|s|, i requires 0 <= i < |s| => UpperChar(s[i]))
  }

  /** A string with no lower-case letter is its own upper-case form. */
  lemma UpperNoLower(s: string)
    requires forall i :: 0 <= i < |s| ==> !IsAsciiLower(s[i])
    ensures Upper(s) == s
  {
  }

  /** `str.lower()` on ASCII letters: no upper-case letter is left, and
      every other character stays where it was. */
  function Lower(s: string): (r: string)
    ensures |r| == |s|
    ensures forall i :: 0 <= i < |r| ==> !IsAsciiUpper(r[i])
    ensures forall i :: 0 <= i < |s| && !IsAsciiUpper(s[i]) ==> r[i] == s[i]
    ensures forall i :: 0 <= i < |s| && IsAsciiUpper(s[i]) ==> IsAsciiLower(r[i]) && UpperChar(r[i]) == s[i]
    ensures forall i :: 0 <= i < |s| ==> r[i] == LowerChar(s[i])
  {
    seq(|s|, i requires 0 <= i < |s| => LowerChar(s[i]))
  }

  /** Upper-casing twice is upper-casing once. */
  lemma UpperIdempotent(s: string)
    ensures Upper(Upper(s)) == Upper(s)
  {
    assert forall i :: 0 <= i < |s| ==> UpperChar(UpperChar(s[i])) == UpperChar(s[i]);
  }

  /** Upper-casing forgets an earlier lower-casing. */
  lemma UpperLower(s: string)
    ensures Upper(Lower(s)) == Upper(s)
  {
    assert forall i :: 0 <= i < |s| ==> UpperChar(LowerChar(s[i])) == UpperChar(s[i]);
  }

  /** Upper-casing the first character and the rest separately. */
  lemma UpperFirst(s: string)
    requires s != []
    ensures Upper(s)[1..] == Upper(s[1..])
    ensures IsSpace(Upper(s)[0]) <==> IsSpace(s[0])
  {
    assert Upper(s)[0] == UpperChar(s[0]);
  }

  /** Upper-casing the last character and the rest separately. */
  lemma UpperLast(s: string)
    requires s != []
    ensures Upper(s)[..|s| - 1] == Upper(s[..|s| - 1])
    ensures IsSpace(Upper(s)[|s| - 1]) <==> IsSpace(s[|s| - 1])
  {
    assert Upper(s)[|s| - 1] == UpperChar(s[|s| - 1]);
  }

  lemma {:induction false} StripLeftUpper(s: string)
    ensures StripLeft(Upper(s)) == Upper(StripLeft(s))
    decreases |s|
  {
    if s != [] {
      UpperFirst(s);
      if IsSpace(s[0]) {
        StripLeftUpper(s[1..]);
      }
    }
  }

  lemma {:induction false} StripRightUpper(s: string)
    ensures StripRight(Upper(s)) == Upper(StripRight(s))
    decreases |s|
  {
    if s != [] {
      UpperLast(s);
      if IsSpace(s[|s| - 1]) {
        StripRightUpper(s[..|s| - 1]);
      }
    }
  }

  /** Upper-casing neither creates nor removes whitespace, so it commutes with strip. */
  lemma StripUpper(s: string)
    ensures Strip(Upper(s)) == Upper(Strip(s))
  {
    StripLeftUpper(s);
    StripRightUpper(StripLeft(s));
  }

  // ---------------------------------------------------------------------------
  // Substring search
  // ---------------------------------------------------------------------------

  predicate StartsWith(s: string, p: string) {
    |p| <= |s| && s[..|p|] == p
  }

  /** A differing character at position `k` rules out the prefix `p`. */
  lemma NotStartsWith(s: string, p: string, k: nat)
    requires k < |p| && k < |s| && s[k] != p[k]
    ensures !StartsWith(s, p)
  {
    if |p| <= |s| {
      assert s[..|p|][k] == s[k];
    }
  }

  /** `p` occurs in `s` starting at index `i`. */
  predicate OccursAt(s: string, p: string, i: int) {
    0 <= i && i + |p| <= |s| && s[i..i + |p|] == p
  }

  /** `str.find` from index `k` on: the first occurrence at or after `k`, if any. */
  function IndexOfFrom(s: string, p: string, k: nat): (r: Option<nat>)
    requires k <= |s|
    ensures r.Some? ==> k <= r.value && OccursAt(s, p, r.value)
    ensures r.Some? ==> forall j :: k <= j < r.value ==> !OccursAt(s, p, j)
    ensures r.None? ==> forall j :: k <= j ==> !OccursAt(s, p, j)
    decreases |s| - k
  {
    if k + |p| > |s| then None
    else if s[k..k + |p|] == p then Some(k)
    else IndexOfFrom(s, p, k + 1)
  }

  /** `str.find`: the first occurrence of `p` in `s`, if any. */
  function IndexOf(s: string, p: string): (r: Option<nat>)
    ensures r.Some? ==> OccursAt(s, p, r.value) && forall j :: 0 <= j < r.value ==> !OccursAt(s, p, j)
    ensures r.None? ==> forall j :: !OccursAt(s, p, j)
  {
    IndexOfFrom(s, p, 0)
  }

  predicate Contains(s: string, p: string) {
    exists i :: 0 <= i <= |s| && OccursAt(s, p, i)
  }

  // ---------------------------------------------------------------------------
  // str.replace
  // ---------------------------------------------------------------------------

  /** `s.replace(pat, rep)` for a non-empty pattern: one left-to-right pass
      replacing non-overlapping occurrences. */
  function Replace(s: string, pat: string, rep: string): (r: string)
    requires pat != []
    ensures |rep| <= |pat| ==> |r| <= |s|
    ensures !Contains(s, pat) ==> r == s
    ensures Contains(s, pat) && |rep| < |pat| ==> |r| < |s|
    decreases |s|
  {
    if |s| < |pat| then s
    else if s[..|pat|] == pat then
      assert OccursAt(s, pat, 0);
      rep + Replace(s[|pat|..], pat, rep)
    else
      assert Contains(s[1..], pat) <==> Contains(s, pat) by {
        forall i | 0 <= i <= |s[1..]| && OccursAt(s[1..], pat, i)
          ensures OccursAt(s, pat, i + 1)
        {
          assert s[1..][i..i + |pat|] == s[i + 1..i + 1 + |pat|];
        }
        forall i | 0 <= i <= |s| && OccursAt(s, pat, i)
          ensures i > 0 && OccursAt(s[1..], pat, i - 1)
        {
          assert s[1..][i - 1..i - 1 + |pat|] == s[i..i + |pat|];
        }
      }
      [s[0]] + Replace(s[1..], pat, rep)
  }

  /** An occurrence one place further on in `s` is an occurrence in its tail. */
  lemma OccursInTail(s: string, p: string, i: nat)
    requires s != []
    ensures OccursAt(s, p, i + 1) <==> OccursAt(s[1..], p, i)
  {
    if i + |p| <= |s[1..]| {
      var u, v := s[i + 1..i + 1 + |p|], s[1..][i..i + |p|];
      assert forall k :: 0 <= k < |p| ==> u[k] == v[k];
      assert u == v;
    }
  }

  /** One step of `Replace` when the text does not start with the pattern. */
  lemma ReplaceSkip(s: string, pat: string, rep: string)
    requires pat != [] && s != [] && !OccursAt(s, pat, 0)
    ensures Replace(s, pat, rep) == [s[0]] + Replace(s[1..], pat, rep)
  {
    if |s| < |pat| {
      assert Replace(s[1..], pat, rep) == s[1..];
      assert [s[0]] + s[1..] == s;
    }
  }

  /** One step of `Replace` when the text starts with the pattern. */
  lemma ReplaceHit(pat: string, b: string, rep: string)
    requires pat != []
    ensures Replace(pat + b, pat, rep) == rep + Replace(b, pat, rep)
  {
    var s := pat + b;
    assert s[..|pat|] == pat && s[|pat|..] == b;
  }

  /** The leftmost occurrence is replaced and the scan resumes right after
      it: text before the first occurrence is kept, the occurrence becomes
      `rep`, and the rest is replaced on its own. With the no-occurrence
      clause of `Replace`, this pins `str.replace` down for every input. */
  lemma {:induction false} ReplaceLeftmost(a: string, b: string, pat: string, rep: string)
    requires pat != []
    requires forall i :: 0 <= i < |a| ==> !OccursAt(a + pat + b, pat, i)
    ensures Replace(a + pat + b, pat, rep) == a + rep + Replace(b, pat, rep)
    decreases |a|
  {
    if a == [] {
      assert a + pat + b == pat + b;
      ReplaceHit(pat, b, rep);
    } else {
      var s, t := a + pat + b, a[1..] + pat + b;
      assert s[1..] == t;
      forall i | 0 <= i < |a[1..]|
        ensures !OccursAt(t, pat, i)
      {
        assert !OccursAt(s, pat, i + 1);
        OccursInTail(s, pat, i);
      }
      ReplaceLeftmost(a[1..], b, pat, rep);
      ReplaceLeftmostStep(a, b, pat, rep);
    }
  }

  /** The inductive step of `ReplaceLeftmost`. */
  lemma ReplaceLeftmostStep(a: string, b: string, pat: string, rep: string)
    requires pat != [] && a != [] && !OccursAt(a + pat + b, pat, 0)
    requires Replace(a[1..] + pat + b, pat, rep) == a[1..] + rep + Replace(b, pat, rep)
    ensures Replace(a + pat + b, pat, rep) == a + rep + Replace(b, pat, rep)
  {
    var w := rep + Replace(b, pat, rep);
    SeqAssoc(a[1..], pat, b);
    SeqAssoc(a[1..], rep, Replace(b, pat, rep));
    ReplaceConsStep(a, pat + b, pat, rep, w);
    SeqAssoc(a, pat, b);
    SeqAssoc(a, rep, Replace(b, pat, rep));
  }

  /** A first character that does not start an occurrence is copied, and
      the rest is replaced on its own. */
  lemma ReplaceConsStep(a: string, u: string, pat: string, rep: string, w: string)
    requires pat != [] && a != [] && !OccursAt(a + u, pat, 0)
    requires Replace(a[1..] + u, pat, rep) == a[1..] + w
    ensures Replace(a + u, pat, rep) == a + w
  {
    TailAppend(a, u);
    ReplaceSkip(a + u, pat, rep);
    SeqAssoc([a[0]], a[1..], w);
    assert [a[0]] + a[1..] == a;
  }

  /** The leftmost occurrence is the first one after text that lacks the
      pattern's first character. */
  lemma ReplaceAfterPlain(a: string, b: string, pat: string, rep: string)
    requires pat != [] && pat[0] !in a
    ensures Replace(a + pat + b, pat, rep) == a + rep + Replace(b, pat, rep)
  {
    var s := a + pat + b;
    forall i | 0 <= i < |a|
      ensures !OccursAt(s, pat, i)
    {
      PlainCharStartsNoOccurrence(s, pat, i);
    }
    ReplaceLeftmost(a, b, pat, rep);
  }

  /** No occurrence starts at a character other than the pattern's first. */
  lemma PlainCharStartsNoOccurrence(s: string, pat: string, i: nat)
    requires pat != [] && i < |s| && s[i] != pat[0]
    ensures !OccursAt(s, pat, i)
  {
    if i + |pat| <= |s| {
      assert s[i..i + |pat|][0] == s[i];
    }
  }

  /** Text whose characters all differ from the pattern's first one is
      copied through unchanged, whatever follows it. */
  lemma {:induction false} ReplacePlainPrefix(a: string, x: string, pat: string, rep: string)
    requires pat != [] && pat[0] !in a
    ensures Replace(a + x, pat, rep) == a + Replace(x, pat, rep)
    decreases |a|
  {
    var s := a + x;
    if a == [] {
      assert s == x;
    } else {
      assert !OccursAt(s, pat, 0) by {
        if |pat| <= |s| { assert s[..|pat|][0] == a[0]; }
      }
      assert s[0] == a[0] && s[1..] == a[1..] + x;
      assert pat[0] !in a[1..];
      ReplacePlainPrefix(a[1..], x, pat, rep);
      calc {
        Replace(s, pat, rep);
        { ReplaceSkip(s, pat, rep); }
        [a[0]] + Replace(a[1..] + x, pat, rep);
        [a[0]] + (a[1..] + Replace(x, pat, rep));
        { SeqAssoc([a[0]], a[1..], Replace(x, pat, rep)); assert [a[0]] + a[1..] == a; }
        a + Replace(x, pat, rep);
      }
    }
  }

  /** Replacing the single character `c` by `rep` everywhere. */
  function SubstChar(s: string, c: char, rep: string): (r: string)
    ensures c !in s ==> r == s
  {
    if s == [] then []
    else (if s[0] == c then rep else [s[0]]) + SubstChar(s[1..], c, rep)
  }

  /** For a one-character pattern, `str.replace` substitutes character by character. */
  lemma {:induction false} ReplaceOneChar(s: string, c: char, rep: string)
    ensures Replace(s, [c], rep) == SubstChar(s, c, rep)
    decreases |s|
  {
    if s != [] {
      assert s[..1] == [c] <==> s[0] == c;
      assert s[|[c]|..] == s[1..];
      ReplaceOneChar(s[1..], c, rep);
    }
  }

  lemma {:induction false} SubstCharAppend(a: string, b: string, c: char, rep: string)
    ensures SubstChar(a + b, c, rep) == SubstChar(a, c, rep) + SubstChar(b, c, rep)
    decreases |a|
  {
    if a != [] {
      assert (a + b)[0] == a[0] && (a + b)[1..] == a[1..] + b;
      SubstCharAppend(a[1..], b, c, rep);
    } else {
      assert a + b == b;
    }
  }

  /** The last position of `c` in `s`, if any. */
  function LastIndexOfChar(s: string, c: char): (r: Option<nat>)
    ensures r.Some? ==> r.value < |s| && s[r.value] == c && forall j :: r.value < j < |s| ==> s[j] != c
    ensures r.None? ==> forall j :: 0 <= j < |s| ==> s[j] != c
  {
    if s == [] then None
    else if s[|s| - 1] == c then Some(|s| - 1)
    else LastIndexOfChar(s[..|s| - 1], c)
  }

  /** A character of `p` that `s` lacks rules out every occurrence of `p`. */
  lemma MissingCharNotContained(s: string, p: string, k: nat)
    requires k < |p| && p[k] !in s
    ensures !Contains(s, p)
  {
    forall i | 0 <= i <= |s|
      ensures !OccursAt(s, p, i)
    {
      if i + |p| <= |s| {
        assert s[i..i + |p|][k] == s[i + k];
      }
    }
  }

  // ---------------------------------------------------------------------------
  // Decimal numerals
  // ---------------------------------------------------------------------------

  function DigitChar(d: int): (c: char)
    requires 0 <= d < 10
    ensures IsDigit(c)
  {
    ('0' as int + d) as char
  }

  function DigitValue(c: char): (d: int)
    requires IsDigit(c)
    ensures 0 <= d < 10 && DigitChar(d) == c
  {
    c as int - '0' as int
  }

  /** `str(n)` for `n >= 0`: decimal digits with no leading zero. */
  function NatToString(n: nat): (s: string)
    ensures s != [] && AllDigits(s)
    ensures s[0] == '0' ==> s == "0"
    decreases n
  {
    if n < 10 then [DigitChar(n)]
    else
      var prefix := NatToString(n / 10);
      assert (prefix + [DigitChar(n % 10)])[0] == prefix[0];
      prefix + [DigitChar(n % 10)]
  }

  /** The number a string of decimal digits denotes. */
  function DigitsValue(s: string): nat
    requires AllDigits(s)
  {
    if s == [] then 0 else DigitsValue(s[..|s| - 1]) * 10 + DigitValue(s[|s| - 1])
  }

  lemma {:induction false} DigitsValueNatToString(n: nat)
    ensures DigitsValue(NatToString(n)) == n
    decreases n
  {
    if n >= 10 {
      var prefix := NatToString(n / 10);
      var s := prefix + [DigitChar(n % 10)];
      assert s[..|s| - 1] == prefix;
      DigitsValueNatToString(n / 10);
    }
  }

  /** `str(i)` for an `int`: a minus sign before the digits of a negative number. */
  function IntToString(i: int): (s: string)
    ensures s != []
    ensures i >= 0 ==> AllDigits(s)
    ensures i < 0 ==> s[0] == '-' && AllDigits(s[1..])
  {
    if i < 0 then "-" + NatToString(-i) else NatToString(i)
  }

  /** Reads an optional minus sign followed by at least one decimal digit. */
  function ParseInt(s: string): (r: Option<int>)
    ensures r.Some? ==> s != []
  {
    if s != [] && s[0] == '-' && |s| > 1 && AllDigits(s[1..]) then Some(-(DigitsValue(s[1..]) as int))
    else if s != [] && AllDigits(s) then Some(DigitsValue(s))
    else None
  }

  /** Formatting an integer loses nothing: reading it back gives the integer. */
  lemma ParseIntToString(i: int)
    ensures ParseInt(IntToString(i)) == Some(i)
  {
    if i < 0 {
      assert IntToString(i)[1..] == NatToString(-i);
      DigitsValueNatToString(-i);
    } else {
      DigitsValueNatToString(i);
    }
  }
}

=== FILE: validators.dfy ===
/** The validators of `gimnasio/security.py`: URLs, phone numbers, member ids
    and e-mail addresses. Each regular expression is restated as an explicit
    pattern predicate, and the computed check is proved to agree with it. */
module Validators {
  import opened Text

  // ===========================================================================
  // validate_url
  // ===========================================================================

  const DangerousSchemes: seq<string> := ["javascript", "data", "vbscript", "about"]
  const DefaultSchemes: seq<string> := ["http", "https"]

  function SchemesOrDefault(allowedSchemes: Option<seq<string>>): seq<string> {
    if allowedSchemes.None? then DefaultSchemes else allowedSchemes.value
  }

  /** Accepts relative paths (anything starting with `/`, including `//host`)
      and absolute URLs whose scheme, the lower-cased text before the first
      `://`, is not one of the dangerous four and is in the allowed list
      (`http` and `https` by default). */
  function ValidateUrl(url: string, allowedSchemes: Option<seq<string>>): (ok: bool)
    ensures url == [] ==> !ok
    ensures url != [] && url[0] == '/' ==> ok
    ensures url != [] && url[0] != '/' && !Contains(url, "://") ==> !ok
    ensures ok && url[0] != '/' ==>
      exists i :: 0 <= i <= |url| && OccursAt(url, "://", i)
        && Lower(url[..i]) !in DangerousSchemes && Lower(url[..i]) in SchemesOrDefault(allowedSchemes)
  {
    if url == [] then false
    else
      var allowed := SchemesOrDefault(allowedSchemes);
      if url[0] == '/' then true
      else match IndexOf(url, "://")
        case None => false
        case Some(i) =>
          var scheme := Lower(url[..i]);
          if scheme in DangerousSchemes then false
          else scheme in allowed
  }

  /** With the first `://` after `prefix`, the verdict depends on the scheme
      `prefix` alone, in both directions. */
  lemma ValidateUrlScheme(url: string, prefix: string, rest: string, allowedSchemes: Option<seq<string>>)
    requires url == prefix + "://" + rest
    requires prefix == [] || prefix[0] != '/'
    requires forall j :: 0 <= j < |prefix| ==> !OccursAt(url, "://", j)
    ensures ValidateUrl(url, allowedSchemes) <==>
      Lower(prefix) !in DangerousSchemes && Lower(prefix) in SchemesOrDefault(allowedSchemes)
  {
    assert OccursAt(url, "://", |prefix|);
    assert url[..|prefix|] == prefix;
  }

  /** A dangerous scheme is rejected even when the caller lists it as allowed. */
  lemma DangerousSchemeRejected(url: string, prefix: string, rest: string, allowedSchemes: Option<seq<string>>)
    requires url == prefix + "://" + rest
    requires prefix == [] || prefix[0] != '/'
    requires forall j :: 0 <= j < |prefix| ==> !OccursAt(url, "://", j)
    requires Lower(prefix) in DangerousSchemes
    ensures !ValidateUrl(url, allowedSchemes)
  {
    ValidateUrlScheme(url, prefix, rest, allowedSchemes);
  }

  lemma NoColonNoSeparator(url: string, n: int)
    requires 0 <= n <= |url|
    requires forall j :: 0 <= j < n ==> url[j] != ':'
    ensures forall j :: 0 <= j < n ==> !OccursAt(url, "://", j)
  {
    forall j | 0 <= j < n
      ensures !OccursAt(url, "://", j)
    {
      if j + 3 <= |url| {
        assert url[j..j + 3][0] == url[j] != ':';
      }
    }
  }

  /** No `://` in `a + b` when `a` has no slash, `b` has no colon and does
      not start with a slash. */
  lemma NoSeparatorSplit(a: string, b: string)
    requires '/' !in a && ':' !in b
    requires b == [] || b[0] != '/'
    ensures !Contains(a + b, "://")
  {
    var u := a + b;
    forall j | 0 <= j <= |u|
      ensures !OccursAt(u, "://", j)
    {
      if j + 3 <= |u| {
        assert u[j..j + 3][0] == u[j] && u[j..j + 3][1] == u[j + 1];
        if j + 1 < |a| {
          assert u[j + 1] == a[j + 1];
        } else if j + 1 == |a| {
          assert u[j + 1] == b[0];
        } else {
          assert u[j] == b[j - |a|];
        }
      }
    }
  }

  /** Without any `/` there is no `://`. */
  lemma NoSlashNoSeparator(url: string)
    requires '/' !in url
    ensures !Contains(url, "://")
  {
    NoSeparatorSplit(url, []);
    assert url + [] == url;
  }

  /** The `javascript:` test URL is refused: it has no `://` at all. */
  lemma ValidateUrlJavascriptTest()
    ensures !ValidateUrl("javascript:alert(1)", None)
  {
    NoSlashNoSeparator("javascript:alert(1)");
  }

  /** The `vbscript:` test URL is refused: it has no `://` at all. */
  lemma ValidateUrlVbscriptTest()
    ensures !ValidateUrl("vbscript:msgbox(1)", None)
  {
    NoSlashNoSeparator("vbscript:msgbox(1)");
  }

  /** The `data:` test URL, written in three pieces, is refused: its only
      slashes follow no colon. */
  lemma ValidateUrlDataTest()
    ensures !ValidateUrl("data:" + ("text/html," + "<script>alert(1)</script>"), None)
  {
    var b1 := "text/html,";
    var b2 := "<script>alert(1)</script>";
    assert ':' !in b1 && ':' !in b2;
    NoSeparatorSplit("data:", b1 + b2);
  }

  /** The `https` test URL, written as scheme, separator and host, is accepted. */
  lemma ValidateUrlHttpsTest()
    ensures ValidateUrl("https" + "://" + "example.com", None)
  {
    var h := "https" + "://" + "example.com";
    NoColonNoSeparator(h, 5);
    ValidateUrlScheme(h, "https", "example.com", None);
    assert Lower("https") == "https";
  }

  /** The relative test path is accepted. */
  lemma ValidateUrlRelativeTest()
    ensures ValidateUrl("/dashboard/", None)
  {
  }

  // ===========================================================================
  // validate_phone
  // ===========================================================================

  predicate IsPhoneChar(c: char) {
    IsDigit(c) || IsSpace(c) || c == '-' || c == '(' || c == ')'
  }

  /** The repeated part of `^\+?[\d\s\-\(\)]{8,20}$`. */
  predicate IsPhoneBody(b: string) {
    8 <= |b| <= 20 && forall i :: 0 <= i < |b| ==> IsPhoneChar(b[i])
  }

  /** The pattern matches `phone` with the optional `+` ending at `i` and
      the repeated part ending at `j` (the end, or just before a final newline). */
  ghost predicate PhoneSplit(phone: string, i: int, j: int) {
    && (i == 0 || (i == 1 && |phone| > 0 && phone[0] == '+'))
    && (j == |phone| || (j == |phone| - 1 && 0 <= j && phone[j] == '\n'))
    && i <= j && IsPhoneBody(phone[i..j])
  }

  /** `^\+?[\d\s\-\(\)]{8,20}$` under `re.match`: an optional `+`, then 8 to
      20 digits, whitespace, hyphens or parentheses; like every Python `$`,
      the end anchor also matches before one final newline. */
  function ValidatePhone(phone: string): (ok: bool)
    ensures ok <==> exists i, j :: PhoneSplit(phone, i, j)
  {
    var i := if |phone| > 0 && phone[0] == '+' then 1 else 0;
    var body := phone[i..];
    var ok := IsPhoneBody(body) || (|body| > 0 && body[|body| - 1] == '\n' && IsPhoneBody(body[..|body| - 1]));
    PhonePatternIff(phone);
    ok
  }

  lemma PhonePatternIff(phone: string)
    ensures var i := if |phone| > 0 && phone[0] == '+' then 1 else 0;
            var body := phone[i..];
            (IsPhoneBody(body) || (|body| > 0 && body[|body| - 1] == '\n' && IsPhoneBody(body[..|body| - 1])))
            <==> exists i', j' :: PhoneSplit(phone, i', j')
  {
    var i := if |phone| > 0 && phone[0] == '+' then 1 else 0;
    var body := phone[i..];
    if IsPhoneBody(body) {
      assert phone[i..|phone|] == body;
      assert PhoneSplit(phone, i, |phone|);
    } else if |body| > 0 && body[|body| - 1] == '\n' && IsPhoneBody(body[..|body| - 1]) {
      assert body[..|body| - 1] == phone[i..|phone| - 1];
      assert PhoneSplit(phone, i, |phone| - 1);
    }
    forall i', j' | PhoneSplit(phone, i', j')
      ensures IsPhoneBody(body) || (|body| > 0 && body[|body| - 1] == '\n' && IsPhoneBody(body[..|body| - 1]))
    {
      assert phone[i'..j'][0] == phone[i'];
      assert i' == i;
      if j' == |phone| {
        assert phone[i'..j'] == body;
      } else {
        assert phone[i'..j'] == body[..|body| - 1];
      }
    }
  }

  /** The phone numbers of the validation tests. */
  lemma ValidatePhoneTestCases()
    ensures ValidatePhone("123-456-7890")
    ensures ValidatePhone("+1 (123) 456-7890")
    ensures ValidatePhone("1234567890")
    ensures !ValidatePhone("abc")
    ensures !ValidatePhone("123")
  {
    assert "+1 (123) 456-7890"[1..] == "1 (123) 456-7890";
  }

  // ===========================================================================
  // validate_socio_id
  // ===========================================================================

  /** How many leading characters of `s` are ASCII capitals. */
  function LeadingCapitals(s: string): (n: nat)
    ensures n <= |s|
    ensures forall i :: 0 <= i < n ==> IsAsciiUpper(s[i])
    ensures n < |s| ==> !IsAsciiUpper(s[n])
  {
    if s != [] && IsAsciiUpper(s[0]) then 1 + LeadingCapitals(s[1..]) else 0
  }

  /** `^[A-Z]{1,3}\d{1,4}$` on a string with no trailing newline. */
  predicate SocioIdShape(u: string) {
    var n := LeadingCapitals(u);
    1 <= n <= 3 && 1 <= |u| - n <= 4 && AllDigits(u[n..])
  }

  /** One to three capitals followed by one to four digits, at split `k`. */
  ghost predicate SocioIdSplit(u: string, k: int) {
    && 1 <= k <= 3 && 1 <= |u| - k <= 4
    && (forall i :: 0 <= i < k ==> IsAsciiUpper(u[i]))
    && AllDigits(u[k..])
  }

  lemma AllDigitsAt(s: string, k: int, i: int)
    requires 0 <= k <= i < |s| && AllDigits(s[k..])
    ensures IsDigit(s[i])
  {
    assert s[k..][i - k] == s[i];
  }

  /** The computed shape check agrees with the pattern, in both directions. */
  lemma SocioIdShapeIff(u: string)
    ensures SocioIdShape(u) <==> exists k :: SocioIdSplit(u, k)
  {
    var n := LeadingCapitals(u);
    if SocioIdShape(u) {
      assert SocioIdSplit(u, n);
    }
    forall k | SocioIdSplit(u, k)
      ensures SocioIdShape(u)
    {
      if n < k {
        assert false;
      } else if k < n {
        AllDigitsAt(u, k, k);
        assert false;
      }
    }
  }

  /** Strips, upper-cases, then requires one to three letters followed by one
      to four digits. */
  function ValidateSocioId(socioId: string): (ok: bool)
    ensures ok <==> exists k :: SocioIdSplit(Upper(Strip(socioId)), k)
  {
    SocioIdShapeIff(Upper(Strip(socioId)));
    SocioIdShape(Upper(Strip(socioId)))
  }

  /** Surrounding whitespace never changes the verdict. */
  lemma SocioIdIgnoresSpace(s: string, ws1: string, ws2: string)
    requires AllSpace(ws1) && AllSpace(ws2)
    ensures ValidateSocioId(ws1 + s + ws2) == ValidateSocioId(s)
  {
    StripSurrounded(ws1, s, ws2);
  }

  /** Upper-casing the id first never changes the verdict. */
  lemma SocioIdIgnoresUpper(s: string)
    ensures ValidateSocioId(Upper(s)) == ValidateSocioId(s)
  {
    StripUpper(s);
    UpperIdempotent(Strip(s));
  }

  /** Lower-casing the id first never changes the verdict. */
  lemma SocioIdIgnoresLower(s: string)
    ensures ValidateSocioId(Lower(s)) == ValidateSocioId(s)
  {
    StripUpper(Lower(s));
    StripUpper(s);
    UpperLower(s);
    assert Upper(Strip(Lower(s))) == Strip(Upper(s));
  }

  /** An id that is already stripped and upper-case is accepted exactly
      when it has the letters-then-digits shape. */
  lemma ValidateSocioIdCanonical(u: string)
    requires Strip(u) == u && Upper(u) == u
    ensures ValidateSocioId(u) <==> SocioIdShape(u)
  {
    SocioIdShapeIff(u);
  }

  /** An id with no surrounding blanks and no lower-case letter is already
      in canonical form. */
  lemma SocioIdCanonicalForm(u: string)
    requires u == [] || (!IsSpace(u[0]) && !IsSpace(u[|u| - 1]))
    requires forall i :: 0 <= i < |u| ==> !IsAsciiLower(u[i])
    ensures Strip(u) == u && Upper(u) == u
  {
    StripFixedPoint(u);
    UpperNoLower(u);
  }

  /** Such an id is accepted exactly when it has the letters-then-digits
      shape. */
  lemma ValidateSocioIdPlain(u: string)
    requires u == [] || (!IsSpace(u[0]) && !IsSpace(u[|u| - 1]))
    requires forall i :: 0 <= i < |u| ==> !IsAsciiLower(u[i])
    ensures ValidateSocioId(u) <==> SocioIdShape(u)
  {
    SocioIdCanonicalForm(u);
    ValidateSocioIdCanonical(u);
  }

  lemma ShapeOneLetter()
    ensures SocioIdShape("S001")
  {
    var u := "S001";
    assert LeadingCapitals(u) == 1 by {
      assert u[1..][1..] == "01";
    }
    assert u[1..] == "001";
  }

  lemma ShapeThreeLetters()
    ensures SocioIdShape("ABC123")
  {
    var u := "ABC123";
    assert LeadingCapitals(u) == 3 by {
      assert u[1..] == "BC123";
      assert u[1..][1..] == "C123";
      assert u[1..][1..][1..] == "123";
    }
    assert u[3..] == "123";
  }

  /** The accepted member ids of the validation tests. */
  lemma ValidateSocioIdAccepted()
    ensures ValidateSocioId("S001")
    ensures ValidateSocioId("ABC123")
  {
    ValidateSocioIdPlain("S001");
    ShapeOneLetter();
    ValidateSocioIdPlain("ABC123");
    ShapeThreeLetters();
  }

  /** The rejected member ids of the validation tests: no letter, no digit. */
  lemma ValidateSocioIdRejected()
    ensures !ValidateSocioId("001")
    ensures !ValidateSocioId("S")
  {
    ValidateSocioIdPlain("001");
    assert LeadingCapitals("001") == 0;
    ValidateSocioIdPlain("S");
  }

  // ===========================================================================
  // validate_email
  // ===========================================================================

  predicate IsLocalChar(c: char) {
    IsAsciiLetter(c) || IsDigit(c) || c == '.' || c == '_' || c == '%' || c == '+' || c == '-'
  }

  predicate IsDomainChar(c: char) {
    IsAsciiLetter(c) || IsDigit(c) || c == '.' || c == '-'
  }

  /** `[a-zA-Z0-9._%+-]+@[a-zA-Z0-9.-]+\.[a-zA-Z]{2,}` matching all of `e`,
      with the `@` at `at` and the separating dot at `dot`. */
  ghost predicate EmailSplit(e: string, at: int, dot: int) {
    && 1 <= at && at + 1 < dot && dot + 3 <= |e|
    && e[at] == '@' && e[dot] == '.'
    && (forall i :: 0 <= i < at ==> IsLocalChar(e[i]))
    && (forall i :: at < i < dot ==> IsDomainChar(e[i]))
    && (forall i :: dot < i < |e| ==> IsAsciiLetter(e[i]))
  }

  ghost predicate EmailPattern(e: string) {
    exists at, dot :: EmailSplit(e, at, dot)
  }

  /** The shape check: split at the first `@` and at the last dot after it. */
  function EmailShape(e: string): bool {
    match IndexOf(e, "@")
    case None => false
    case Some(at) =>
      var rest := e[at + 1..];
      match LastIndexOfChar(rest, '.')
      case None => false
      case Some(d) =>
        && 1 <= at && 1 <= d && d + 3 <= |rest|
        && (forall i :: 0 <= i < at ==> IsLocalChar(e[i]))
        && (forall i :: 0 <= i < d ==> IsDomainChar(rest[i]))
        && (forall i :: d < i < |rest| ==> IsAsciiLetter(rest[i]))
  }

  lemma EmailShapeIff(e: string)
    ensures EmailShape(e) <==> EmailPattern(e)
  {
    if EmailShape(e) {
      EmailShapeMatches(e);
    }
    if EmailPattern(e) {
      EmailMatchHasShape(e);
    }
  }

  /** The computed check's split is a split of the pattern. */
  lemma EmailShapeMatches(e: string)
    requires EmailShape(e)
    ensures EmailPattern(e)
  {
    var at := IndexOf(e, "@").value;
    var d := LastIndexOfChar(e[at + 1..], '.').value;
    assert OccursAt(e, "@", at);
    assert e[at] == e[at..at + 1][0];
    assert EmailSplit(e, at, at + 1 + d);
  }

  /** A split of the pattern is the one the computed check finds. */
  lemma EmailMatchHasShape(e: string)
    requires EmailPattern(e)
    ensures EmailShape(e)
  {
    var at, dot :| EmailSplit(e, at, dot);
    assert OccursAt(e, "@", at);
    forall j | 0 <= j < at
      ensures !OccursAt(e, "@", j)
    {
      assert e[j..j + 1][0] == e[j];
    }
    assert IndexOf(e, "@") == Some(at);
    var rest := e[at + 1..];
    assert rest[dot - at - 1] == '.';
    var d := LastIndexOfChar(rest, '.');
    forall j | dot - at - 1 < j < |rest|
      ensures rest[j] != '.'
    {
      assert rest[j] == e[at + 1 + j];
    }
    assert d == Some(dot - at - 1);
  }

  /** `re.match` of the address pattern; the `$` anchor also matches before
      one final newline. */
  function ValidateEmail(email: string): (ok: bool)
    ensures ok <==> EmailPattern(email)
                    || (|email| > 0 && email[|email| - 1] == '\n' && EmailPattern(email[..|email| - 1]))
  {
    EmailShapeIff(email);
    assert |email| > 0 ==> (EmailShape(email[..|email| - 1]) <==> EmailPattern(email[..|email| - 1])) by {
      if |email| > 0 {
        EmailShapeIff(email[..|email| - 1]);
      }
    }
    EmailShape(email) || (|email| > 0 && email[|email| - 1] == '\n' && EmailShape(email[..|email| - 1]))
  }
}

=== FILE: whatsapp.dfy ===
/** What `send_whatsapp_message` in `gimnasio/whatsapp.py` decides before it
    talks to Twilio: whether the credentials are configured, whether a number
    was given, and how a local Mexican mobile number is turned into the
    international form the gateway expects. The Twilio call itself is not
    part of this model. */
module WhatsApp {
  import opened Text

  /** How the pre-send checks end: a destination address to send to, a
      refusal with a message, or the bare one-element refusal `(False,)`. */
  datatype Outcome = Ready(destination: string) | Refused(message: string) | RefusedBare

  const MissingConfigMessage := "Configuración de Twilio no disponible."
  const EmptyNumberMessage := "Número de teléfono vacío."

  /** Country code 52 followed by the mobile marker 1. */
  const MobilePrefix := "521"

  /** Python truthiness of an optional text value: present and non-empty. */
  predicate Truthy(s: Option<string>) {
    s.Some? && s.value != []
  }

  /** `^\d{10,11}$`; it is applied to a stripped number, which cannot end in
      a newline, so the end anchor needs no special case. */
  predicate IsLocalNumber(t: string) {
    10 <= |t| <= 11 && AllDigits(t)
  }

  /** The national part of a local number: without one leading `0`. */
  function NationalPart(t: string): (u: string)
    ensures t != [] && t[0] == '0' ==> t == "0" + u
    ensures (t == [] || t[0] != '0') ==> u == t
  {
    if t != [] && t[0] == '0' then t[1..] else t
  }

  /** `521` in front of a national part that does not already start with it. */
  function WithMobilePrefix(u: string): (v: string)
    ensures StartsWith(v, MobilePrefix)
    ensures |u| <= |v| <= |u| + 3 && v[|v| - |u|..] == u
    ensures AllDigits(u) ==> AllDigits(v)
  {
    if StartsWith(u, MobilePrefix) then u else MobilePrefix + u
  }

  /** The prefix is added exactly when it is missing, and then in full: the
      result is `u` itself or three characters longer. */
  lemma WithMobilePrefixExact(u: string)
    ensures StartsWith(u, MobilePrefix) <==> WithMobilePrefix(u) == u
    ensures !StartsWith(u, MobilePrefix) ==> |WithMobilePrefix(u)| == |u| + 3
  {
  }

  /** A stripped number: a local number gets the `+521` prefix (the `521`
      only when it is not already there), a number with a leading `+` is kept
      as it is, anything else is refused. */
  function NormalizeStripped(t: string): (r: Option<string>)
    ensures r.None? <==> !IsLocalNumber(t) && !StartsWith(t, "+")
    ensures r.Some? ==> |r.value| >= 1 && r.value[0] == '+'
    ensures r.Some? && !IsLocalNumber(t) ==> r.value == t
  {
    if IsLocalNumber(t) then Some("+" + WithMobilePrefix(NationalPart(t)))
    else if StartsWith(t, "+") then Some(t)
    else None
  }

  /** A local number comes out as `+521` and digits only, ending with its
      national part, in at most 15 characters (the E.164 maximum). */
  lemma LocalNumberShape(t: string)
    requires IsLocalNumber(t)
    ensures var n := NormalizeStripped(t).value;
            var u := NationalPart(t);
            && StartsWith(n, "+" + MobilePrefix)
            && AllDigits(n[1..])
            && |u| < |n| && n[|n| - |u|..] == u
            && |n| <= 15
  {
    var u := NationalPart(t);
    assert AllDigits(u) by {
      if t[0] == '0' {
        assert forall i :: 0 <= i < |u| ==> u[i] == t[i + 1];
      }
    }
    var v := WithMobilePrefix(u);
    var n := "+" + v;
    assert n[1..] == v;
    assert n[|n| - |u|..] == v[|v| - |u|..];
    assert n[..4] == "+" + v[..3];
  }

  /** The common case: a local number with no leading `0` and no `521` of
      its own is sent as `+521` followed by all of its digits. */
  lemma PlainLocalNumberPrefixed(t: string)
    requires IsLocalNumber(t) && t[0] != '0' && !StartsWith(t, MobilePrefix)
    ensures NormalizeStripped(t) == Some("+" + MobilePrefix + t)
  {
    assert NationalPart(t) == t;
    var v := WithMobilePrefix(t);
    WithMobilePrefixExact(t);
    assert |v| == |t| + 3;
    assert v[3..] == t;
    assert v[..3] == MobilePrefix;
    assert v == MobilePrefix + t by {
      assert v == v[..3] + v[3..];
    }
    assert "+" + MobilePrefix + t == "+" + v;
  }

  /** `send_whatsapp_message`'s handling of the number: strip it, then
      normalise it. */
  function Normalize(number: string): (r: Option<string>)
    ensures var t := Strip(number); r.None? <==> !IsLocalNumber(t) && !StartsWith(t, "+")
    ensures r.Some? ==> |r.value| >= 1 && r.value[0] == '+'
    ensures r.Some? && !IsLocalNumber(Strip(number)) ==> r.value == Strip(number)
  {
    NormalizeStripped(Strip(number))
  }

  /** A number that already starts with `+` is accepted as it is. */
  lemma PlusNumberKept(n: string)
    requires |n| >= 1 && n[0] == '+'
    ensures NormalizeStripped(n) == Some(n)
  {
    assert !IsDigit(n[0]);
    assert n[..1] == "+";
  }

  /** Normalising keeps the number's last character. */
  lemma AcceptedKeepsLastChar(t: string)
    requires NormalizeStripped(t).Some?
    ensures var n := NormalizeStripped(t).value;
            t != [] && n[|n| - 1] == t[|t| - 1]
  {
    var n := NormalizeStripped(t).value;
    if IsLocalNumber(t) {
      var u := NationalPart(t);
      var v := WithMobilePrefix(u);
      assert n == "+" + v;
      assert u[|u| - 1] == t[|t| - 1];
      assert v[|v| - |u|..][|u| - 1] == v[|v| - 1];
    }
  }

  /** What normalising a stripped number accepts has no surrounding blanks. */
  lemma AcceptedIsStripped(t: string)
    requires t == [] || (!IsSpace(t[0]) && !IsSpace(t[|t| - 1]))
    requires NormalizeStripped(t).Some?
    ensures Strip(NormalizeStripped(t).value) == NormalizeStripped(t).value
  {
    var n := NormalizeStripped(t).value;
    AcceptedKeepsLastChar(t);
    assert !IsSpace(n[0]) && !IsSpace(n[|n| - 1]);
    StripFixedPoint(n);
  }

  /** An accepted stripped number is stripped, starts with `+`, and so is
      accepted again unchanged. */
  lemma NormalizeStrippedIdempotent(t: string)
    requires t == [] || (!IsSpace(t[0]) && !IsSpace(t[|t| - 1]))
    requires NormalizeStripped(t).Some?
    ensures var n := NormalizeStripped(t).value;
            Strip(n) == n && NormalizeStripped(n) == Some(n)
  {
    AcceptedIsStripped(t);
    PlusNumberKept(NormalizeStripped(t).value);
  }

  /** Normalising an accepted number again leaves it unchanged. */
  lemma NormalizeIdempotent(number: string)
    requires Normalize(number).Some?
    ensures Normalize(Normalize(number).value) == Normalize(number)
  {
    NormalizeStrippedIdempotent(Strip(number));
  }

  /** A local number that already carries the prefix is not prefixed twice. */
  lemma PrefixNotDoubled(t: string)
    requires IsLocalNumber(t) && StartsWith(t, MobilePrefix)
    ensures NormalizeStripped(t) == Some("+" + t)
  {
    assert t[0] == '5';
  }

  /** A local number with a leading zero loses it and gains `+521`, unless
      what follows the zero already starts with `521`. */
  lemma LeadingZeroReplaced(t: string)
    requires IsLocalNumber(t) && t[0] == '0'
    ensures StartsWith(t[1..], MobilePrefix) ==> NormalizeStripped(t) == Some("+" + t[1..])
    ensures !StartsWith(t[1..], MobilePrefix) ==> NormalizeStripped(t) == Some("+" + MobilePrefix + t[1..])
  {
    assert "+" + (MobilePrefix + t[1..]) == "+" + MobilePrefix + t[1..];
  }

  /** The checks of `send_whatsapp_message` before anything is sent: the
      credentials first, then a missing or empty number, then the number's
      shape. */
  function PrepareRecipient(sid: Option<string>, token: Option<string>, recipient: Option<string>): (r: Outcome)
    ensures !Truthy(sid) || !Truthy(token) ==> r == Refused(MissingConfigMessage)
    ensures Truthy(sid) && Truthy(token) && !Truthy(recipient) ==> r == Refused(EmptyNumberMessage)
    ensures r.RefusedBare? <==> Truthy(sid) && Truthy(token) && Truthy(recipient) && Normalize(recipient.value).None?
    ensures r.Ready? ==>
      Truthy(recipient) && Normalize(recipient.value).Some? && r.destination == "whatsapp:" + Normalize(recipient.value).value
    ensures Truthy(sid) && Truthy(token) && Truthy(recipient) && Normalize(recipient.value).Some? ==>
      r == Ready("whatsapp:" + Normalize(recipient.value).value)
  {
    if !Truthy(sid) || !Truthy(token) then Refused(MissingConfigMessage)
    else if !Truthy(recipient) then Refused(EmptyNumberMessage)
    else match Normalize(recipient.value)
      case None => RefusedBare
      case Some(n) => Ready("whatsapp:" + n)
  }

  /** A number of blanks passes the emptiness check and is then refused
      without a message. */
  lemma BlankNumberRefusedBare(sid: string, token: string, blanks: string)
    requires sid != [] && token != [] && blanks != [] && AllSpace(blanks)
    ensures PrepareRecipient(Some(sid), Some(token), Some(blanks)) == RefusedBare
  {
    StripAllSpace(blanks);
    assert NormalizeStripped([]) == None;
  }
}
